=== FILE: README.md ===
# vocabspec in Dafny

A model of the vocabulary engine of `vocabspec` (`index.js`). A vocabulary is
an ordered list of property records, each with one or more names (the first is
canonical) and one or more definition strings, plus a name ledger
(`nameCount`) and an `onauto` setting. The engine:

- registers properties (`defineProperty`), rejecting names and definitions
  that clash with earlier records, or renaming clashing names when asked;
- allocates fresh names `base_k` (`claimName`, `uniqueVersion`);
- matches a record of another vocabulary by shared definition (`match`),
  optionally adopting it when nothing matches;
- looks records up by any of their names (`byName`);
- converts nested data from one vocabulary's keys to another's (`convert`).

The closure state of `create` becomes the immutable datatype
`Records.Vocab(recs, ledger, onauto, notified)`. Every operation is a pure
function that returns the new state. Calls that can fail return an
`Outcome`:

- `Done(vocab, value)` is a normal return.
- `Threw(vocab, error)` is a JavaScript exception. It keeps the state, because
  mutations made before a `throw` are not undone. A name claimed before a
  definition conflict stays claimed.
- `Hangs` is a loop that never exits.

Modules:

- `JsText`: the decimal rendering of a counter, and `split(' ')`.
- `Records`: the datatypes, the error messages and `create`.
- `Allocator`: `claimName` and `uniqueVersion`.
- `Registry`: `defineProperty` and the scans it shares with the matcher.
- `Matcher`: `match` and `byName`.
- `Converter`: `convert`.
- `Invariants`: what stays true across calls.
- `Scenarios` and `Renaming`: the behaviours the repository's tests exercise,
  proved on the model, plus the sequence that gives two records the same
  generated name.

Behaviour of the code that the model keeps, although a user of the library
might expect otherwise:

- **Generated names are never claimed.** `claimName` is called only for
  names that are kept as given (the comment at index.js:10-11 says so), and
  `uniqueVersion` stores the counter under the base name only (index.js:31).
  A generated name that is later renamed again therefore starts from an
  undefined count. `undefined++` is NaN, so the candidate is always
  `base_NaN`. When `base_NaN` is already a ledger key the loop never exits
  (`Hangs`); otherwise the same `base_NaN` comes back on every further call.
  `Renaming.GeneratedNameRepeats` shows successful registrations that leave
  two records with the same name. Renaming completes whenever every used name
  holds a numeric count (`Registry.ResolveWithRename`).
- **Names and definitions are checked only against existing records,** never
  against the other entries of the same call. Names uniqueness is therefore
  proved under conditions (`Invariants.DefineKeepsNamesDistinct`).
- **Keys are looked up by any name of a record,** not only the canonical
  one: `byName` scans all names.
- **An unregistered key hands `null` to `match`.** Unless the target has no
  definitions at all and `onauto` is unset, that throws a TypeError
  (`Error.NullTarget`).
- **A names string is cut at every single space,** as `split(' ')` does.
  `''` gives `['']`, which is not an empty list, and doubled spaces give
  empty names.

## Model

| member | source | states |
|---|---|---|
| JsText.Dec | index.js:23 | a counter renders as a non-empty string of decimal digits, at least two for counters of 10 or more |
| JsText.DecValue | index.js:23 | the text of a counter spells that counter in decimal, most significant digit first, with no leading zero except for 0 itself |
| JsText.DecInjective | index.js:21-30 | different counters render differently, so the allocator never tries the same candidate twice |
| JsText.CandidateInjective | index.js:23 | `base_j` and `base_k` coincide only when j = k |
| JsText.CandidateShape | index.js:23 | in `base_k` the character after the base is an underscore and no later character is |
| JsText.CandidateInjectiveAcross | index.js:23 | a candidate name determines both its base and its counter |
| JsText.NaNNotCandidate | index.js:22-23 | a `base_NaN` name is never a numbered candidate of any base |
| JsText.Split | index.js:36 | splitting a names string always yields at least one part, so a string never produces the empty-names error |
| JsText.JoinSplit | index.js:36 | splitting at spaces loses nothing: joining the parts with single spaces gives the string back |
| JsText.SplitNoSpace | index.js:36 | no part of a split names string contains a space |
| JsText.SplitWord | index.js:36 | a space-free word splits to itself, and a word followed by a space and more text splits off as the first part |
| JsText.SplitJoin | index.js:36 | space-free names joined with spaces split back into exactly those names |
| Allocator.ClaimName | index.js:12-15 | the name becomes a ledger key with count 1, whatever it held; every other entry is unchanged |
| Allocator.ClaimAll | index.js:45-62 | claiming a list adds exactly its names as keys, each with count 1, and leaves other entries unchanged |
| Allocator.NextFree | index.js:21-30 | the counter loop stops at the least j above its start whose candidate is not a ledger key; it terminates because each rejected candidate is a distinct key |
| Allocator.UniqueVersion | index.js:18-33 | from a numeric count c it returns `base_k` for the least k > c not taken and stores k under the base; from a missing or NaN count it returns `base_NaN` and stores NaN, or never exits when `base_NaN` is a key; the result is never a ledger key, and only the base is added as a key |
| Allocator.UniqueVersionAdvances | index.js:31 | a second allocation from the same base yields a strictly larger suffix |
| Allocator.NaNRepeats | index.js:19-25 | once the count of a base is missing or NaN, the allocator returns the same `base_NaN` on every call |
| Registry.NamesOf | index.js:36 | a names string gives at least one name, none containing a space, and joining them with single spaces gives the string back; an array is used as given |
| Registry.DefsOf | index.js:37 | a definitions string becomes the one-element list holding it and an array is used as given, so only an empty array gives an empty list |
| Records.MessageReadsBack | index.js:57-68 | the name a name conflict reports, and both names a definition conflict reports, sit at fixed positions of the message text, as does the type `convert` rejects (index.js:145) |
| Registry.VersionDeterminesBase | index.js:18-33 | a generated name determines the name it was generated from, so renamings of different names never give the same name |
| Registry.FirstSharing | index.js:63-72 | the index of the first record in registration order that shares a definition with the list; none exactly when no record shares one |
| Registry.ResolveOne | index.js:46-61 | an unused name is claimed as it is; a used one clashes without renaming; with renaming it becomes exactly the name and ledger `uniqueVersion` returns, and the turn is stuck exactly when `uniqueVersion` never exits; the name always ends up a ledger key, and numeric counts stay numeric |
| Registry.ResolvedKeys | index.js:45-62 | a completed names loop makes every requested name a ledger key and adds no other key |
| Registry.ResolvedNames | index.js:45-62 | a completed names loop keeps each unused name and replaces each used one, only under renaming, by the name `uniqueVersion` returns from the ledger the loop holds at that point, a name that was not a ledger key; it ends with the ledger of its last turn, every advanced counter stored |
| Registry.ResolvedLedger | index.js:45-62 | a completed names loop ends with the ledger it holds after its last turn, so each count `uniqueVersion` advanced stays stored |
| Registry.FirstUsed | index.js:48-53 | the index of the first requested name that an existing record uses; none exactly when no name is used |
| Registry.ResolveNoRename | index.js:45-62 | without renaming the loop claims the names before the first used one and stops there with a conflict on it, or claims every name |
| Registry.ResolveWithoutRename | index.js:53-58 | without renaming the loop never hangs, conflicts exactly when some name is used, and otherwise returns the names as given with all of them claimed |
| Registry.ConflictReportsFirst | index.js:57 | without renaming a conflict names the first used name, and the names before it stay claimed |
| Registry.ResolveWithRename | index.js:54-55 | with renaming the loop never conflicts, hangs only after meeting a used name, and completes whenever every used name holds a numeric count |
| Registry.DefineProperty | index.js:35-76 | empty names fail first and empty definitions second; a failure leaves the records unchanged; success appends exactly one record with the given definitions and as many names as requested; a definition conflict names the owner of the first record sharing a definition; `onauto` and the notifications are untouched |
| Registry.DefineWithoutRename | index.js:35-76 | without renaming registration never hangs, and succeeds exactly when both lists are non-empty, no name is used by an existing record and no definition is owned by one; the record then carries the names as given, all claimed |
| Registry.NameConflictReport | index.js:53-58 | a name conflict reports the first used name ("Property name X already used"), leaves the records unchanged and keeps the claims of the names before it |
| Registry.DefineWithRename | index.js:54-55 | with renaming registration never fails on a name and hangs only when some requested name is used; it returns the new record whenever both lists are non-empty, no definition is owned and every used name holds a numeric count |
| Registry.DefinedNames | index.js:45-75 | the new record keeps every unused name at its position and replaces every used one by the name `uniqueVersion` returns at that point of the loop, which was not a ledger key; every requested name becomes a ledger key, and the ledger is exactly the one the names loop ends with, counters included |
| Registry.DefinitionConflictReport | index.js:63-70 | a definition conflict names the requesting record by its first name after renaming: the name as given when unused, otherwise the name `uniqueVersion` returned for it; the ledger is exactly the one the names loop ends with |
| Matcher.ByName | index.js:105-114 | the first record in registration order listing the name at any position; none exactly when no record lists it |
| Matcher.Match | index.js:82-102 | a shared definition returns the first record having one, with the vocabulary unchanged; otherwise null when `onauto` is unset; a null target (an unregistered key) throws unless no record of the vocabulary has a definition and `onauto` is unset; a returned record belongs to the vocabulary; with `onauto` unset nothing changes and nothing hangs |
| Matcher.AutoRegisters | index.js:88-99 | with no match and `onauto` set, exactly one record is appended and returned, carrying the target's definitions and the target's names, each kept when unused and otherwise replaced by the name `uniqueVersion` returns; it never fails on a name or definition conflict; a callback `onauto` is notified with exactly that record; adoption returns whenever the target has names and definitions and each of its used names holds a numeric count |
| Converter.Put | index.js:140 | writing a key overwrites its value when present and appends it otherwise; every other key keeps its value |
| Converter.PutKeepsPlaces | index.js:140 | writing a key keeps every key in its place: an existing key is overwritten where it stands and every other entry is unchanged |
| Converter.Convert | index.js:116-146 | primitives come back unchanged and the target untouched; other types throw; with `onauto` unset the target is unchanged and nothing hangs; the target only grows; arrays keep their length and objects stay objects |
| Converter.ConvertFields | index.js:133-143 | with `onauto` unset the key loop never hangs and leaves the target unchanged; otherwise the target only grows: records and notifications are appended and `onauto` is kept |
| Converter.ConvertElems | index.js:123-129 | the corrected element loop produces one output element per input element; with `onauto` unset it never hangs and leaves the target unchanged, otherwise the target only grows |
| Converter.FieldKeysCanonical | index.js:133-143 | every output key of the key loop is the canonical name of a record of the target as it stands afterwards |
| Converter.ConvertKeysCanonical | index.js:139-140 | every key of a converted object is `Records.Canonical` of a record of the target: its first name, or `undefined` for a record with no names |
| Converter.FieldKeysOff | index.js:133-143 | with `onauto` unset the key loop's output keys are the accumulated keys plus the canonical names of the target records the remaining keys match |
| Converter.ConvertKeysOff | index.js:133-143 | with `onauto` unset the keys of a converted object are exactly the canonical names of the target records its keys match: unmatched keys are dropped and nothing else appears |
| Converter.MatchTurnOff | index.js:136-137 | with `onauto` unset, matching a key's record neither hangs nor changes the target; it throws exactly when the key is unregistered and some target record has a definition, and otherwise finds a record exactly when the key has a counterpart |
| Converter.FieldTurnOff | index.js:133-142 | with `onauto` unset, one turn of the key loop throws when its key is unregistered against a target with definitions or its matched value fails to convert, and otherwise moves on with the value written under the counterpart's canonical name, or with nothing written |
| Converter.FieldsDoneOff | index.js:133-143 | with `onauto` unset the key loop succeeds exactly when every remaining key is registered (or no target record has a definition) and every matched value converts |
| Converter.ConvertObjectDoneOff | index.js:130-143 | with `onauto` unset an object of any size converts exactly under that condition and otherwise throws; unmatched keys never make it fail |
| Converter.LastIn | index.js:133-142 | the last field whose key produces a given output key; none exactly when no field produces it |
| Converter.MatchedKeyOut | index.js:136-139 | with `onauto` unset, the record a key is matched to in the target is the one whose canonical name the key is predicted to produce, and an unmatched key produces none |
| Converter.FieldValuesOff | index.js:133-143 | with `onauto` unset the key loop writes under each output key the converted value of the last remaining field producing it, and other keys keep their accumulated values |
| Converter.ConvertValuesOff | index.js:139-140 | with `onauto` unset each key of a converted object holds the conversion of the value of the last input field producing that key, and a key no field produces is absent |
| Converter.RenamedByDefinition | index.js:135-140 | a key whose record here shares a definition with a target record comes back under that record's canonical name, the primitive value unchanged |
| Converter.UnmatchedDropped | index.js:137-141 | a registered key that matches no target record is dropped when `onauto` is unset |
| Converter.UnregisteredKey | index.js:136-137 | a key no record here carries is dropped only when no target record has a definition and `onauto` is unset; otherwise conversion throws |
| Converter.ElemsOff | index.js:123-129 | with `onauto` unset the corrected element loop succeeds exactly when every element converts, keeping the elements already converted, each output being its element's conversion |
| Converter.ConvertArrayOff | index.js:123-129 | with `onauto` unset the corrected array conversion succeeds exactly when each element converts, and output element k is the conversion of input element k |
| Converter.ConvertUntargeted | index.js:116-146 | `convert(a)` with no target: primitives unchanged, `{}` comes back as `{}`, an object with a key fails on the undefined target, other types throw; a nested array converts exactly when each element does, and position 2k then holds element k's untargeted conversion and position 2k+1 `undefined` |
| Converter.UntargetedElems | index.js:125-127 | with no target the loop succeeds exactly when each remaining element converts; the entries pushed so far are kept, and each element pushes its untargeted conversion followed by `undefined` |
| Converter.ConvertArrayAsWritten | index.js:123-129 | the array branch as written succeeds exactly when every element converts with no target; it then returns twice as many entries as the input, position 2k holds the untargeted conversion of element k, and exactly the odd positions hold the target vocabulary |
| Converter.AsWrittenElems | index.js:125-127 | the loop succeeds exactly when each remaining element converts with no target; the entries pushed so far are kept, and each element pushes its untargeted conversion followed by the target vocabulary |
| Converter.ArrayAsWrittenCounterexample | index.js:126 | `[20]` comes back as `[20, to]` from the code as written but as `[20]` from element-wise conversion; an array holding `{age: 20}` throws as written |
| Invariants.DefinePreservesDefs | index.js:63-75 | registration keeps the definitions of different records disjoint |
| Invariants.MatchPreservesDefs | index.js:82-102 | matching, including adoption, keeps the definitions of different records disjoint |
| Invariants.ConvertPreservesDefs | index.js:116-146 | conversion, whatever it adopts into the target, keeps the target's definitions disjoint across records |
| Invariants.FieldsPreserveDefs | index.js:133-143 | the key loop keeps the target's definitions disjoint across records |
| Invariants.NameUsedIsInAllNames | index.js:48-52 | the name scan finds a name exactly when it occurs among all names of all records |
| Invariants.DefineKeepsNamesDistinct | index.js:45-62 | without renaming, registering distinct names into a vocabulary whose names are all distinct keeps all names distinct |
| Scenarios.DefineOne | index.js:35-76 | one unused space-free name with one unowned definition appends that record and claims the name |
| Scenarios.OneKey | index.js:133-143 | a one-key object holding a primitive value converts to the canonical name of the record the target's matcher returns, with the value unchanged |
| Scenarios.FirstRegistration | index.js:35-76 | the first registration into a fresh vocabulary gives a one-record vocabulary with that name claimed |
| Scenarios.FirstRegistrationOfTwo | index.js:36-62 | a names string of two space-separated words registers one record with both names, both claimed |
| Scenarios.DefineUsed | index.js:53-58 | a used name fails without renaming and leaves the vocabulary as it was |
| Scenarios.DefineOwned | index.js:63-70 | an unused name with an owned definition fails naming the first owner, and the name stays claimed |
| Scenarios.ByDifferentNameRegistered | test/basics.js:8-11 | the two registrations of the test give one-record vocabularies |
| Scenarios.ByDifferentNameConverted | test/basics.js:6-14 | `{age: 20}` converts to `{yearsOld: 20}` when both properties share a definition |
| Scenarios.MultipleDefsRegistered | test/basics.js:50-51 | `'age2 age'` with two definitions registers one record named `age2` and `age` |
| Scenarios.MultipleDefs | test/basics.js:48-56 | a key matching the second name of a record converts via a definition at another position to `{yearsOld: 20}` |
| Scenarios.NotMatched | test/basics.js:16-24 | a target record with a different definition does not match, and the output is `{}` |
| Scenarios.PropertyAbsent | test/basics.js:26-33 | an empty target with `onauto` unset gives `{}` |
| Scenarios.NamePreviouslyUsed | test/basics.js:58-67 | registering `age` again fails with "Property name age already used" and changes nothing |
| Scenarios.DefinitionPreviouslyUsed | test/basics.js:69-78 | registering the definition again under `age2` fails with "Property def of age2 already used by age1", and `age2` stays claimed |
| Renaming.DefineListed | index.js:45-75 | an unused name with an unowned definition is registered as it is, with or without renaming |
| Renaming.DefineRenamed | index.js:53-55 | a used name with renaming is registered under the allocator's name, with the allocator's ledger |
| Renaming.ConvertFromSource | index.js:133-143 | a one-key object holding a primitive value, from a one-record vocabulary, converts under the canonical name of the record the target returns |
| Renaming.AutoFresh | index.js:92-99 | an unmatched record with an unused name is adopted under that name, and a callback `onauto` is handed it |
| Renaming.AutoRenamed | index.js:92-99 | with `onauto` true (no callback), an unmatched record with a used name is adopted under the allocator's name |
| Renaming.AllocatesPastClaimed | index.js:18-33 | from counter 3 with `age_4` claimed directly, `uniqueVersion('age')` yields `age_5` and stores 5 |
| Renaming.AutoNotified | test/basics.js:35-46 | with a callback `onauto`, `{age: 20}` converts to `{age: 20}` and the callback sees a record equal to the source's, named `age` |
| Renaming.NastyFirst | test/basics.js:98-103 | the first `age` is adopted under its own name |
| Renaming.SecondAge | index.js:92-99 | a second `age` with any definition other than the first's is adopted as `age_2`, the counter of `age` moves to 2, and the key comes back as `age_2` |
| Renaming.AutoCreatedWithRenaming | test/basics.js:80-93 | `{age: 20}` keeps its name and `{age: 21}` from the vocabulary holding the long definition becomes `{age_2: 21}` |
| Renaming.NastySecond | test/basics.js:105-107 | a second `age` with another definition becomes `age_2` |
| Renaming.NastyThird | test/basics.js:109-111 | a third becomes `age_3` |
| Renaming.NastyFourth | test/basics.js:113-117 | `age_4` is adopted under its own name and claimed directly |
| Renaming.NastyFifth | test/basics.js:119-121 | the next `age` skips the claimed `age_4` and becomes `age_5` |
| Renaming.GeneratedNameRepeats | index.js:18-33 | registering `a`, then `a` again with renaming (giving `a_2`), then `a_2` twice with renaming succeeds every time, and two records end up named `a_2_NaN` |

## Left out

- The `debug` logging calls: they print and change nothing.
- The `create` and export boilerplate: `Records.Create` is the empty state.
- Aliasing. `names[i] = uniqueVersion(name)` writes into the caller's array, and adoption passes the other vocabulary's own `names` array, so in JavaScript renaming also rewrites the source record. The model's values are immutable, so this does not happen.
- The code inside an `onauto` callback: the model only records, in `notified`, the record the callback is handed.
- Arguments of other types. `names` and `defs` are modelled as a string or an array of strings. `for (let i in names)` also visits inherited enumerable properties; the model iterates the array's elements.
- JavaScript numbers are passed through unchanged and are modelled as `int`.
- JsText.Dec: renders every counter in plain decimal; JavaScript switches to exponent notation from 10^21, a counter the allocator cannot reach in practice.
- The order of `Object.getOwnPropertyNames` (integer-like keys first), duplicate input keys, and the special key `__proto__`. An object is an association list visited in order; output keys are overwritten on repeat.
- Converter.Convert: the array branch converts element-wise against the target, as the code evidently intends; the code as written is `Converter.ConvertArrayAsWritten` (see Findings).
- Registry.ResolveNames: its own contract states only the length of the result; what it computes is stated by `Registry.ResolveNoRename`, `Registry.ResolvedNames` and `Registry.ResolvedKeys`.
- Converter.ConvertValuesOff: the output values are stated for a target with `onauto` unset. With auto-registration the target grows between keys, and each value is converted against the target as it stands then; `Converter.ConvertFields` states only that the target grows.
- Invariants.DefineKeepsNamesDistinct: proved for registration without renaming only. With renaming, distinctness fails in the code, as `Renaming.GeneratedNameRepeats` shows.

## Findings

| source | as written | input that shows it | evidently intended | confidence | as-written member | corrected member |
|---|---|---|---|---|---|---|
| index.js:126 | `result.push(convert(a), to)` converts each element with no target and pushes the target vocabulary after it | `v.convert([20], to)` gives `[20, to]`; `v.convert([{age: 20}], to)` throws on `undefined._match` | `result.push(convert(a, to))`: each element converted against the target | not executed | Converter.ConvertArrayAsWritten | Converter.ConvertArrayOff |

=== FILE: allocator.dfy ===
/** The name allocator: `claimName` and `uniqueVersion` over the ledger `nameCount`. */
module Allocator {
  import opened JsText
  import opened Records

  /** `claimName`: the name is marked as taken with count 1, whatever it held before. */
  function ClaimName(ledger: Ledger, name: string): (l: Ledger)
    ensures l.Keys == ledger.Keys + {name}
    ensures l[name] == At(1)
    ensures forall n :: n in ledger && n != name ==> l[n] == ledger[n]
  {
    ledger[name := At(1)]
  }

  /** Claims every name of a list in order. */
  function ClaimAll(ledger: Ledger, names: seq<string>): (l: Ledger)
    ensures l.Keys == ledger.Keys + set n | n in names
    ensures forall n :: n in names ==> l[n] == At(1)
    ensures forall n :: n in ledger && n !in names ==> l[n] == ledger[n]
    decreases |names|
  {
    if |names| == 0 then ledger else ClaimAll(ClaimName(ledger, names[0]), names[1..])
  }

  /** Claiming the first i + 1 names is claiming the first, then i more. */
  lemma ClaimAllPrefix(ledger: Ledger, names: seq<string>, i: nat)
    requires i < |names|
    ensures ClaimAll(ledger, names[..i + 1]) == ClaimAll(ClaimName(ledger, names[0]), names[1..][..i])
  {
    assert names[..i + 1][1..] == names[1..][..i];
  }

  /** The candidates `base_0` .. `base_k`; their number only matters for termination. */
  ghost function Tried(base: string, k: nat): set<string>
  {
    set i: nat | i <= k :: Candidate(base, i)
  }

  lemma TriedShrinks(ledger: Ledger, base: string, k: nat)
    requires Candidate(base, k + 1) in ledger
    ensures |ledger.Keys - Tried(base, k + 1)| < |ledger.Keys - Tried(base, k)|
  {
    var c := Candidate(base, k + 1);
    forall i: nat | i <= k
      ensures Candidate(base, i) != c
    {
      if Candidate(base, i) == c {
        CandidateInjective(base, i, k + 1);
      }
    }
    assert Tried(base, k + 1) == Tried(base, k) + {c};
    var before, after := ledger.Keys - Tried(base, k), ledger.Keys - Tried(base, k + 1);
    assert before == after + {c};
  }

  /** The counter loop of `uniqueVersion` from counter k: the least j > k whose
      candidate is not a ledger key. Each rejected candidate is a distinct
      ledger key, so at most |ledger| + 1 candidates are tried. */
  function NextFree(ledger: Ledger, base: string, k: nat): (j: nat)
    ensures k < j
    ensures Candidate(base, j) !in ledger
    ensures forall i :: k < i < j ==> Candidate(base, i) in ledger
    decreases |ledger.Keys - Tried(base, k)|
  {
    if Candidate(base, k + 1) !in ledger then k + 1
    else
      TriedShrinks(ledger, base, k);
      NextFree(ledger, base, k + 1)
  }

  /** k is the counter value `uniqueVersion` stops at when it starts from `from`. */
  ghost predicate LeastFree(ledger: Ledger, base: string, from: nat, k: nat)
  {
    && from < k
    && Candidate(base, k) !in ledger
    && forall i :: from < i < k ==> Candidate(base, i) in ledger
  }

  /** What `uniqueVersion` returns: the new ledger and the generated name, or
      `Spins` when the loop can never exit. */
  datatype Alloc = Allocated(ledger: Ledger, name: string) | Spins

  /** `uniqueVersion(base)`. From a numeric count c it tries base_(c+1),
      base_(c+2), ... and stops at the first that is not a ledger key, storing
      the winning counter under `base` (not under the generated name). From a
      missing or NaN count the counter is NaN: the only candidate is base_NaN,
      and the loop never exits if that is a ledger key. */
  function UniqueVersion(ledger: Ledger, base: string): (a: Alloc)
    ensures base in ledger && ledger[base].At? ==>
              && a.Allocated?
              && exists k :: LeastFree(ledger, base, ledger[base].n, k)
                             && a.name == Candidate(base, k)
                             && a.ledger == ledger[base := At(k)]
    ensures !(base in ledger && ledger[base].At?) ==>
              && (a.Allocated? <==> NaNName(base) !in ledger)
              && (a.Allocated? ==> a.name == NaNName(base) && a.ledger == ledger[base := NaN])
    ensures a.Allocated? ==> a.name !in ledger && a.name !in a.ledger
    ensures a.Allocated? ==> a.ledger.Keys == ledger.Keys + {base}
  {
    if base in ledger && ledger[base].At? then
      var k := NextFree(ledger, base, ledger[base].n);
      assert LeastFree(ledger, base, ledger[base].n, k);
      Allocated(ledger[base := At(k)], Candidate(base, k))
    else if NaNName(base) in ledger then Spins
    else Allocated(ledger[base := NaN], NaNName(base))
  }

  /** Repeated allocation from one base keeps advancing: the second call
      yields a strictly larger suffix. */
  lemma UniqueVersionAdvances(ledger: Ledger, base: string)
    requires base in ledger && ledger[base].At?
    ensures var a := UniqueVersion(ledger, base);
            && a.Allocated?
            && var b := UniqueVersion(a.ledger, base);
            && b.Allocated?
            && exists j, k :: j < k && a.name == Candidate(base, j) && b.name == Candidate(base, k)
  {
    var a := UniqueVersion(ledger, base);
    var j :| LeastFree(ledger, base, ledger[base].n, j) && a.name == Candidate(base, j)
             && a.ledger == ledger[base := At(j)];
    var b := UniqueVersion(a.ledger, base);
    var k :| LeastFree(a.ledger, base, j, k) && b.name == Candidate(base, k);
    assert j < k;
  }

  /** Generated names are never claimed: once the count of a base is missing or
      NaN, every further call returns the same base_NaN. */
  lemma NaNRepeats(ledger: Ledger, base: string)
    requires !(base in ledger && ledger[base].At?)
    requires NaNName(base) !in ledger
    ensures var a := UniqueVersion(ledger, base);
            && a.Allocated?
            && UniqueVersion(a.ledger, base) == a
  {
    var a := UniqueVersion(ledger, base);
    assert NaNName(base) != base;
  }
}

=== FILE: converter.dfy ===
/** The converter: `convert(obj, to)` walks a value and renames object keys from
    this vocabulary's names to the canonical names of the matching records of
    the target vocabulary. */
module Converter {
  import opened Records
  import opened Registry
  import opened Matcher

  /** The JavaScript values `convert` distinguishes. Objects are association
      lists in `Object.getOwnPropertyNames` order; `Other` is any value whose
      `typeof` is none of the handled ones (function, symbol, bigint). */
  datatype Value =
    | Undef
    | Null
    | Bool(b: bool)
    | Number(x: int)
    | Str(s: string)
    | Arr(elems: seq<Value>)
    | Obj(fields: seq<(string, Value)>)
    | Other(kind: string)

  /** The values `convert` returns unchanged. */
  predicate IsPrimitive(x: Value)
  {
    x.Undef? || x.Null? || x.Bool? || x.Number? || x.Str?
  }

  /** The keys of an object. */
  function KeysOf(fields: seq<(string, Value)>): set<string>
  {
    set i | 0 <= i < |fields| :: fields[i].0
  }

  /** Reading `obj[key]`: the value of the first entry with that key. */
  function Get(fields: seq<(string, Value)>, key: string): Option<Value>
    decreases |fields|
  {
    if |fields| == 0 then None
    else if fields[0].0 == key then Some(fields[0].1)
    else Get(fields[1..], key)
  }

  lemma KeysOfCons(f: (string, Value), rest: seq<(string, Value)>)
    ensures KeysOf([f] + rest) == {f.0} + KeysOf(rest)
  {
    var r := [f] + rest;
    forall k | k in KeysOf(r)
      ensures k in {f.0} + KeysOf(rest)
    {
      var i :| 0 <= i < |r| && r[i].0 == k;
      if i > 0 { assert rest[i - 1].0 == k; }
    }
    forall k | k in KeysOf(rest)
      ensures k in KeysOf(r)
    {
      var i :| 0 <= i < |rest| && rest[i].0 == k;
      assert r[i + 1].0 == k;
    }
    assert r[0].0 == f.0;
  }

  /** `result[key] = value`: an existing key keeps its place and gets the new
      value; a new key is appended. */
  function Put(fields: seq<(string, Value)>, key: string, value: Value): (r: seq<(string, Value)>)
    ensures KeysOf(r) == KeysOf(fields) + {key}
    ensures Get(r, key) == Some(value)
    ensures forall k :: k != key ==> Get(r, k) == Get(fields, k)
    ensures key in KeysOf(fields) ==> |r| == |fields|
    ensures key !in KeysOf(fields) ==> r == fields + [(key, value)]
    decreases |fields|
  {
    if |fields| == 0 then
      KeysOfCons((key, value), []);
      assert [(key, value)] == [(key, value)] + [];
      [(key, value)]
    else
      assert fields == [fields[0]] + fields[1..];
      KeysOfCons(fields[0], fields[1..]);
      if fields[0].0 == key then
        var r := [(key, value)] + fields[1..];
        KeysOfCons((key, value), fields[1..]);
        assert r[1..] == fields[1..];
        r
      else
        var rest := Put(fields[1..], key, value);
        var r := [fields[0]] + rest;
        KeysOfCons(fields[0], rest);
        assert r[1..] == rest;
        r
  }

  /** The target after a conversion step: records only appended, the `onauto`
      setting untouched, notifications only appended. */
  predicate Grows(a: Vocab, b: Vocab)
  {
    && a.recs <= b.recs
    && a.onauto == b.onauto
    && a.notified <= b.notified
  }

  /** Every key of an output object is the canonical name of a target record. */
  predicate KeysCanonical(fields: seq<(string, Value)>, to: Vocab)
  {
    forall k :: k in KeysOf(fields) ==> exists r :: r in to.recs && Canonical(r) == k
  }

  /** `from.convert(x, to)`. Arrays are converted element by element against
      the target (see ConvertArrayAsWritten for the code as written). The
      target threads through: auto-registration while converting one key is
      visible when converting the next. */
  function Convert(from: Vocab, x: Value, to: Vocab): (o: Outcome<Value>)
    ensures IsPrimitive(x) ==> o == Done(to, x)
    ensures x.Other? ==> o == Threw(to, UnsupportedType(x.kind))
    ensures to.onauto.Off? ==> !o.Hangs? && o.vocab == to
    ensures !o.Hangs? ==> Grows(to, o.vocab)
    ensures o.Done? && x.Arr? ==> o.value.Arr? && |o.value.elems| == |x.elems|
    ensures o.Done? && x.Obj? ==> o.value.Obj?
    decreases x, 1
  {
    match x
    case Arr(_) =>
      (match ConvertElems(from, x, 0, to, [])
       case Done(t, es) => Done(t, Arr(es))
       case Threw(t, e) => Threw(t, e)
       case Hangs => Hangs)
    case Obj(_) =>
      (match ConvertFields(from, x, 0, to, [])
       case Done(t, fs) => Done(t, Obj(fs))
       case Threw(t, e) => Threw(t, e)
       case Hangs => Hangs)
    case Other(kind) => Threw(to, UnsupportedType(kind))
    case _ => Done(to, x)
  }

  /** The loop over the elements of an array from index i, `acc` holding the
      elements converted so far. */
  function ConvertElems(from: Vocab, x: Value, i: nat, to: Vocab, acc: seq<Value>): (o: Outcome<seq<Value>>)
    requires x.Arr? && i <= |x.elems|
    ensures to.onauto.Off? ==> !o.Hangs? && o.vocab == to
    ensures !o.Hangs? ==> Grows(to, o.vocab)
    ensures o.Done? ==> |o.value| == |acc| + |x.elems| - i
    decreases x, 0, |x.elems| - i
  {
    if i == |x.elems| then Done(to, acc)
    else match Convert(from, x.elems[i], to)
      case Done(t, v) => ConvertElems(from, x, i + 1, t, acc + [v])
      case Threw(t, e) => Threw(t, e)
      case Hangs => Hangs
  }

  /** The loop over the keys of an object from index i (index.js:133-142),
      `acc` holding the output object so far. Each key is looked up by name
      in this vocabulary, matched in the target, and, when a target record
      comes back, written under that record's canonical name; otherwise the
      key is dropped. */
  function ConvertFields(from: Vocab, x: Value, i: nat, to: Vocab, acc: seq<(string, Value)>): (o: Outcome<seq<(string, Value)>>)
    requires x.Obj? && i <= |x.fields|
    ensures to.onauto.Off? ==> !o.Hangs? && o.vocab == to
    ensures !o.Hangs? ==> Grows(to, o.vocab)
    decreases x, 0, |x.fields| - i
  {
    if i == |x.fields| then Done(to, acc)
    else
      var (key, val) := x.fields[i];
      match Match(to, ByName(from.recs, key))
      case Hangs => Hangs
      case Threw(t, e) => Threw(t, e)
      case Done(t1, found) =>
        if found.None? then ConvertFields(from, x, i + 1, t1, acc)
        else
          var toRec := found.value;
          match Convert(from, val, t1)
          case Hangs => Hangs
          case Threw(t2, e) => Threw(t2, e)
          case Done(t2, cv) =>
            ConvertFields(from, x, i + 1, t2, Put(acc, Canonical(toRec), cv))
  }

  /** The target record matched by an input key, by index: the key is looked
      up by name here, and the record found is matched by definition there. */
  function Counterpart(from: Vocab, to: Vocab, key: string): Option<nat>
  {
    match ByName(from.recs, key)
    case None => None
    case Some(p) => FirstSharing(to.recs, p.defs)
  }

  /** The output key an input key should produce in `to`, if any. */
  ghost function KeyOut(from: Vocab, to: Vocab, key: string): set<string>
  {
    match Counterpart(from, to, key)
    case None => {}
    case Some(j) => {Canonical(to.recs[j])}
  }

  /** The output keys a conversion into `to` should produce from `fields`:
      the canonical names of the target records their keys match. */
  ghost function MatchedKeys(from: Vocab, to: Vocab, fields: seq<(string, Value)>): set<string>
    decreases |fields|
  {
    if |fields| == 0 then {} else KeyOut(from, to, fields[0].0) + MatchedKeys(from, to, fields[1..])
  }

  lemma KeysCanonicalGrows(acc: seq<(string, Value)>, a: Vocab, b: Vocab)
    requires KeysCanonical(acc, a) && a.recs <= b.recs
    ensures KeysCanonical(acc, b)
  {
    forall k | k in KeysOf(acc)
      ensures exists r :: r in b.recs && Canonical(r) == k
    {
      var r :| r in a.recs && Canonical(r) == k;
      assert r in b.recs;
    }
  }

  lemma KeysCanonicalPut(acc: seq<(string, Value)>, t: Vocab, r: Rec, v: Value)
    requires KeysCanonical(acc, t) && r in t.recs
    ensures KeysCanonical(Put(acc, Canonical(r), v), t)
  {
  }

  /** A converted object only has keys that are canonical names of records of
      the target as it stands after the conversion. */
  lemma {:induction false} FieldKeysCanonical(from: Vocab, x: Value, i: nat, to: Vocab, acc: seq<(string, Value)>)
    requires x.Obj? && i <= |x.fields|
    requires KeysCanonical(acc, to)
    requires ConvertFields(from, x, i, to, acc).Done?
    ensures var o := ConvertFields(from, x, i, to, acc); KeysCanonical(o.value, o.vocab)
    decreases |x.fields| - i, 1
  {
    if i < |x.fields| {
      var m := Match(to, ByName(from.recs, x.fields[i].0));
      if m.value.None? {
        KeysCanonicalGrows(acc, to, m.vocab);
        FieldKeysCanonical(from, x, i + 1, m.vocab, acc);
      } else {
        FoundKeyCanonical(from, x, i, to, acc);
      }
    }
  }

  /** The step of FieldKeysCanonical where the key's record is found in the target. */
  lemma {:induction false} FoundKeyCanonical(from: Vocab, x: Value, i: nat, to: Vocab, acc: seq<(string, Value)>)
    requires x.Obj? && i < |x.fields|
    requires KeysCanonical(acc, to)
    requires ConvertFields(from, x, i, to, acc).Done?
    requires Match(to, ByName(from.recs, x.fields[i].0)).value.Some?
    ensures var o := ConvertFields(from, x, i, to, acc); KeysCanonical(o.value, o.vocab)
    decreases |x.fields| - i, 0
  {
    var m := Match(to, ByName(from.recs, x.fields[i].0));
    var toRec := m.value.value;
    var c := Convert(from, x.fields[i].1, m.vocab);
    var t2 := c.vocab;
    KeysCanonicalGrows(acc, to, t2);
    assert toRec in t2.recs;
    KeysCanonicalPut(acc, t2, toRec, c.value);
    FieldKeysCanonical(from, x, i + 1, t2, Put(acc, Canonical(toRec), c.value));
  }

  /** Every key of a converted object is the canonical (first) name of a record
      of the target vocabulary. */
  lemma ConvertKeysCanonical(from: Vocab, fields: seq<(string, Value)>, to: Vocab)
    requires Convert(from, Obj(fields), to).Done?
    ensures var o := Convert(from, Obj(fields), to); KeysCanonical(o.value.fields, o.vocab)
  {
    FieldKeysCanonical(from, Obj(fields), 0, to, []);
  }

  /** With `onauto` unset, the keys of a converted object are exactly the
      canonical names of the target records matched by its keys: unmatched
      keys are dropped and nothing else appears. */
  lemma {:induction false} FieldKeysOff(from: Vocab, x: Value, i: nat, to: Vocab, acc: seq<(string, Value)>)
    requires x.Obj? && i <= |x.fields|
    requires to.onauto.Off?
    requires ConvertFields(from, x, i, to, acc).Done?
    ensures KeysOf(ConvertFields(from, x, i, to, acc).value) == KeysOf(acc) + MatchedKeys(from, to, x.fields[i..])
    decreases |x.fields| - i
  {
    if i < |x.fields| {
      var (key, val) := x.fields[i];
      assert x.fields[i..][1..] == x.fields[i + 1..];
      var m := Match(to, ByName(from.recs, key));
      if m.value.None? {
        FieldKeysOff(from, x, i + 1, to, acc);
      } else {
        var toRec := m.value.value;
        var c := Convert(from, val, to);
        var acc' := Put(acc, Canonical(toRec), c.value);
        FieldKeysOff(from, x, i + 1, to, acc');
      }
    }
  }

  /** With `onauto` unset, the keys of a converted object are exactly the
      canonical names of the target records matched by its keys: unmatched
      keys are dropped and nothing else appears. */
  lemma ConvertKeysOff(from: Vocab, fields: seq<(string, Value)>, to: Vocab)
    requires to.onauto.Off?
    requires Convert(from, Obj(fields), to).Done?
    ensures KeysOf(Convert(from, Obj(fields), to).value.fields) == MatchedKeys(from, to, fields)
  {
    FieldKeysOff(from, Obj(fields), 0, to, []);
    assert fields[0..] == fields;
  }

  /** `result[key] = value` keeps every key in its place: an existing key is
      overwritten where it stands, and every other entry is unchanged. */
  lemma {:induction false} PutKeepsPlaces(fields: seq<(string, Value)>, key: string, value: Value)
    ensures var r := Put(fields, key, value);
            && (forall p :: 0 <= p < |fields| ==> r[p].0 == fields[p].0)
            && (forall p :: 0 <= p < |fields| && fields[p].0 != key ==> r[p] == fields[p])
    decreases |fields|
  {
    if |fields| > 0 {
      var r := Put(fields, key, value);
      if fields[0].0 == key {
        assert r == [(key, value)] + fields[1..];
        assert forall p :: 0 < p < |fields| ==> r[p] == fields[p];
      } else {
        var rest := Put(fields[1..], key, value);
        PutKeepsPlaces(fields[1..], key, value);
        assert r == [fields[0]] + rest;
        assert forall p :: 0 < p < |fields| ==> r[p] == rest[p - 1] && fields[p] == fields[1..][p - 1];
      }
    }
  }

  /** The index of the last entry of `outs` equal to {k}: for the output key
      sets of a run of fields, the field whose value the output holds under k. */
  ghost function LastIn(outs: seq<set<string>>, k: string): (r: Option<nat>)
    ensures r.Some? ==> && r.value < |outs| && outs[r.value] == {k}
                        && forall j :: r.value < j < |outs| ==> outs[j] != {k}
    ensures r.None? <==> forall j :: 0 <= j < |outs| ==> outs[j] != {k}
    decreases |outs|
  {
    if |outs| == 0 then None
    else
      var rest := LastIn(outs[1..], k);
      assert forall j :: 0 < j < |outs| ==> outs[j] == outs[1..][j - 1];
      match rest
      case Some(p) => Some(p + 1)
      case None => if outs[0] == {k} then Some(0) else None
  }

  /** The output key set of each field: what KeyOut predicts for its key. */
  ghost function KeyOuts(from: Vocab, to: Vocab, fields: seq<(string, Value)>): (r: seq<set<string>>)
    ensures |r| == |fields|
    ensures forall j :: 0 <= j < |fields| ==> r[j] == KeyOut(from, to, fields[j].0)
  {
    seq(|fields|, j requires 0 <= j < |fields| => KeyOut(from, to, fields[j].0))
  }

  /** The converted value of each field, None where its conversion fails. */
  ghost function Converted(from: Vocab, to: Vocab, fields: seq<(string, Value)>): (r: seq<Option<Value>>)
    ensures |r| == |fields|
    ensures forall j :: 0 <= j < |fields| ==>
              r[j] == if Convert(from, fields[j].1, to).Done? then Some(Convert(from, fields[j].1, to).value) else None
  {
    seq(|fields|, j requires 0 <= j < |fields| =>
      if Convert(from, fields[j].1, to).Done? then Some(Convert(from, fields[j].1, to).value) else None)
  }

  /** `out` holds, under each key k, the value `vals` gives the last position
      whose key set is {k}, and the value `acc` holds when there is none. */
  ghost predicate Agrees(outs: seq<set<string>>, vals: seq<Option<Value>>, out: seq<(string, Value)>, acc: seq<(string, Value)>)
    requires |vals| == |outs|
  {
    forall k :: match LastIn(outs, k)
                case None => Get(out, k) == Get(acc, k)
                case Some(p) => vals[p].Some? && Get(out, k) == vals[p]
  }

  /** A first position producing no key leaves the agreement to the rest. */
  lemma DroppedAgrees(outs: seq<set<string>>, vals: seq<Option<Value>>, out: seq<(string, Value)>, acc: seq<(string, Value)>)
    requires |outs| == |vals| > 0 && outs[0] == {}
    requires Agrees(outs[1..], vals[1..], out, acc)
    ensures Agrees(outs, vals, out, acc)
  {
    forall k
      ensures match LastIn(outs, k)
              case None => Get(out, k) == Get(acc, k)
              case Some(p) => vals[p].Some? && Get(out, k) == vals[p]
    {
      var r := LastIn(outs[1..], k);
      assert {k} != {} by { assert k in {k}; }
      assert LastIn(outs, k) == if r.Some? then Some(r.value + 1) else None;
      if r.Some? {
        assert vals[r.value + 1] == vals[1..][r.value];
      }
    }
  }

  /** A first position producing key c with value v agrees when the rest
      agrees with the accumulated object after writing v under c. */
  lemma WrittenAgrees(outs: seq<set<string>>, vals: seq<Option<Value>>, c: string, v: Value,
                      out: seq<(string, Value)>, acc: seq<(string, Value)>)
    requires |outs| == |vals| > 0 && outs[0] == {c} && vals[0] == Some(v)
    requires Agrees(outs[1..], vals[1..], out, Put(acc, c, v))
    ensures Agrees(outs, vals, out, acc)
  {
    forall k
      ensures match LastIn(outs, k)
              case None => Get(out, k) == Get(acc, k)
              case Some(p) => vals[p].Some? && Get(out, k) == vals[p]
    {
      var r := LastIn(outs[1..], k);
      if r.Some? {
        assert LastIn(outs, k) == Some(r.value + 1);
        assert vals[r.value + 1] == vals[1..][r.value];
      } else if k == c {
        assert LastIn(outs, k) == Some(0);
      } else {
        assert {k} != {c} by { assert k in {k}; }
        assert LastIn(outs, k) == None;
      }
    }
  }

  /** With `onauto` unset, a key's match in the target is the record whose
      canonical name KeyOut predicts. */
  lemma MatchedKeyOut(from: Vocab, to: Vocab, key: string)
    requires to.onauto.Off?
    requires Match(to, ByName(from.recs, key)).Done?
    ensures var m := Match(to, ByName(from.recs, key));
            && (m.value.None? ==> KeyOut(from, to, key) == {})
            && (m.value.Some? ==> KeyOut(from, to, key) == {Canonical(m.value.value)})
  {
  }

  /** With `onauto` unset, the key loop writes under each output key the
      conversion of the value of the last field producing that key; keys no
      remaining field produces keep their accumulated value. */
  lemma {:induction false} FieldValuesOff(from: Vocab, x: Value, i: nat, to: Vocab, acc: seq<(string, Value)>)
    requires x.Obj? && i <= |x.fields|
    requires to.onauto.Off?
    requires ConvertFields(from, x, i, to, acc).Done?
    ensures Agrees(KeyOuts(from, to, x.fields[i..]), Converted(from, to, x.fields[i..]), ConvertFields(from, x, i, to, acc).value, acc)
    decreases |x.fields| - i
  {
    var out := ConvertFields(from, x, i, to, acc).value;
    if i < |x.fields| {
      var (key, val) := x.fields[i];
      var fs := x.fields[i..];
      var outs, vals := KeyOuts(from, to, fs), Converted(from, to, fs);
      assert fs[1..] == x.fields[i + 1..] && fs[0] == x.fields[i];
      assert outs[1..] == KeyOuts(from, to, x.fields[i + 1..]);
      assert vals[1..] == Converted(from, to, x.fields[i + 1..]);
      MatchedKeyOut(from, to, key);
      var m := Match(to, ByName(from.recs, key));
      if m.value.None? {
        FieldValuesOff(from, x, i + 1, to, acc);
        DroppedAgrees(outs, vals, out, acc);
      } else {
        var c := Convert(from, val, to);
        var acc' := Put(acc, Canonical(m.value.value), c.value);
        FieldValuesOff(from, x, i + 1, to, acc');
        WrittenAgrees(outs, vals, Canonical(m.value.value), c.value, out, acc);
      }
    }
  }

  /** With `onauto` unset, each key of a converted object holds the converted
      value of the last input field whose key produces it, and no other key is
      present. */
  lemma ConvertValuesOff(from: Vocab, fields: seq<(string, Value)>, to: Vocab)
    requires to.onauto.Off?
    requires Convert(from, Obj(fields), to).Done?
    ensures var out := Convert(from, Obj(fields), to).value.fields;
            forall k :: match LastIn(KeyOuts(from, to, fields), k)
                        case None => Get(out, k) == None
                        case Some(p) => && Convert(from, fields[p].1, to).Done?
                                        && Get(out, k) == Some(Convert(from, fields[p].1, to).value)
  {
    FieldValuesOff(from, Obj(fields), 0, to, []);
    assert fields[0..] == fields;
    var out := Convert(from, Obj(fields), to).value.fields;
    var vals := Converted(from, to, fields);
    forall k
      ensures match LastIn(KeyOuts(from, to, fields), k)
              case None => Get(out, k) == None
              case Some(p) => && Convert(from, fields[p].1, to).Done?
                              && Get(out, k) == Some(Convert(from, fields[p].1, to).value)
    {
      match LastIn(KeyOuts(from, to, fields), k)
      case None => assert Get([], k) == None;
      case Some(p) => assert vals[p].Some?;
    }
  }

  /** With `onauto` unset, the turn of the key loop for field f does not throw:
      the key is registered here unless no target record has a definition
      (otherwise `match(null)` throws), and when the key has a counterpart in
      the target its value converts. */
  predicate FieldOk(from: Vocab, to: Vocab, f: (string, Value))
  {
    && (NameUsed(from.recs, f.0) || !ReadsTargetDefs(to.recs))
    && (Counterpart(from, to, f.0).Some? ==> Convert(from, f.1, to).Done?)
  }

  /** With `onauto` unset, matching a key's record in the target succeeds
      exactly when the key is registered here or no target record has a
      definition, and then finds a record exactly when the key has a
      counterpart. */
  lemma MatchTurnOff(from: Vocab, to: Vocab, key: string)
    requires to.onauto.Off?
    ensures var m := Match(to, ByName(from.recs, key));
            && (m.Done? || m.Threw?) && m.vocab == to
            && (m.Done? <==> NameUsed(from.recs, key) || !ReadsTargetDefs(to.recs))
            && (m.Done? ==> (m.value.Some? <==> Counterpart(from, to, key).Some?))
  {
  }

  /** The output object after a turn for field f that does not throw: the
      converted value written under the counterpart's canonical name, or the
      object unchanged when the key has no counterpart. */
  function NextAcc(from: Vocab, to: Vocab, f: (string, Value), acc: seq<(string, Value)>): seq<(string, Value)>
    requires FieldOk(from, to, f)
  {
    match Counterpart(from, to, f.0)
    case None => acc
    case Some(j) => Put(acc, Canonical(to.recs[j]), Convert(from, f.1, to).value)
  }

  /** With `onauto` unset, a turn of the key loop either throws, exactly when
      its field is not FieldOk, or passes to the next field with NextAcc. */
  lemma FieldTurnOff(from: Vocab, x: Value, i: nat, to: Vocab, acc: seq<(string, Value)>)
    requires x.Obj? && i < |x.fields|
    requires to.onauto.Off?
    ensures !FieldOk(from, to, x.fields[i]) ==> ConvertFields(from, x, i, to, acc).Threw?
    ensures FieldOk(from, to, x.fields[i]) ==>
              ConvertFields(from, x, i, to, acc) == ConvertFields(from, x, i + 1, to, NextAcc(from, to, x.fields[i], acc))
  {
    MatchTurnOff(from, to, x.fields[i].0);
  }

  /** With `onauto` unset, the key loop from index i succeeds exactly when
      every remaining field's turn is FieldOk; otherwise it throws. */
  lemma {:induction false} FieldsDoneOff(from: Vocab, x: Value, i: nat, to: Vocab, acc: seq<(string, Value)>)
    requires x.Obj? && i <= |x.fields|
    requires to.onauto.Off?
    ensures ConvertFields(from, x, i, to, acc).Done?
        <==> forall k :: i <= k < |x.fields| ==> FieldOk(from, to, x.fields[k])
    decreases |x.fields| - i
  {
    if i < |x.fields| {
      FieldTurnOff(from, x, i, to, acc);
      if FieldOk(from, to, x.fields[i]) {
        FieldsDoneOff(from, x, i + 1, to, NextAcc(from, to, x.fields[i], acc));
      }
    }
  }

  /** With `onauto` unset, an object converts exactly when every field is
      FieldOk, and throws otherwise: keys with no match are dropped, and only an
      unregistered key or a failing nested value makes it throw. */
  lemma ConvertObjectDoneOff(from: Vocab, fields: seq<(string, Value)>, to: Vocab)
    requires to.onauto.Off?
    ensures Convert(from, Obj(fields), to).Done? <==> forall k :: 0 <= k < |fields| ==> FieldOk(from, to, fields[k])
    ensures !Convert(from, Obj(fields), to).Done? ==> Convert(from, Obj(fields), to).Threw?
  {
    FieldsDoneOff(from, Obj(fields), 0, to, []);
  }

  /** A one-key object whose key names a record here that shares a definition
      with a record of the target comes back keyed by that target record's
      canonical name, a primitive value unchanged and the target untouched. */
  lemma RenamedByDefinition(from: Vocab, to: Vocab, key: string, x: Value)
    requires IsPrimitive(x)
    requires Counterpart(from, to, key).Some?
    ensures Counterpart(from, to, key).value < |to.recs|
    ensures Convert(from, Obj([(key, x)]), to)
         == Done(to, Obj([(Canonical(to.recs[Counterpart(from, to, key).value]), x)]))
  {
    var j := Counterpart(from, to, key).value;
    var k := Canonical(to.recs[j]);
    var o := Obj([(key, x)]);
    assert Match(to, ByName(from.recs, key)) == Done(to, Some(to.recs[j]));
    assert Convert(from, x, to) == Done(to, x);
    assert Put([], k, x) == [(k, x)];
    assert ConvertFields(from, o, 1, to, [(k, x)]) == Done(to, [(k, x)]);
    assert ConvertFields(from, o, 0, to, []) == Done(to, [(k, x)]);
  }

  /** A registered key that no target record shares a definition with is
      dropped when the target's `onauto` is unset. */
  lemma UnmatchedDropped(from: Vocab, to: Vocab, key: string, x: Value)
    requires to.onauto.Off?
    requires NameUsed(from.recs, key)
    requires Counterpart(from, to, key).None?
    ensures Convert(from, Obj([(key, x)]), to) == Done(to, Obj([]))
  {
    var o := Obj([(key, x)]);
    assert Match(to, ByName(from.recs, key)) == Done(to, None);
    assert ConvertFields(from, o, 1, to, []) == Done(to, []);
    assert ConvertFields(from, o, 0, to, []) == Done(to, []);
  }

  /** A key no record here carries reaches `match(null)`: it is dropped only
      when no target record has a definition and `onauto` is unset, and
      otherwise the conversion throws. */
  lemma UnregisteredKey(from: Vocab, to: Vocab, key: string, x: Value)
    requires !NameUsed(from.recs, key)
    ensures Convert(from, Obj([(key, x)]), to)
         == if ReadsTargetDefs(to.recs) || !to.onauto.Off? then Threw(to, NullTarget) else Done(to, Obj([]))
  {
    var o := Obj([(key, x)]);
    assert ByName(from.recs, key) == None;
    assert ConvertFields(from, o, 1, to, []) == Done(to, []);
  }

  lemma {:induction false} ElemsOff(from: Vocab, x: Value, i: nat, to: Vocab, acc: seq<Value>)
    requires x.Arr? && i <= |x.elems| && to.onauto.Off?
    ensures var o := ConvertElems(from, x, i, to, acc);
            && (o.Done? <==> forall k :: i <= k < |x.elems| ==> Convert(from, x.elems[k], to).Done?)
            && (o.Done? ==> && o.value[..|acc|] == acc
                            && forall k :: i <= k < |x.elems| ==> Convert(from, x.elems[k], to).value == o.value[|acc| + k - i])
    decreases |x.elems| - i
  {
    if i < |x.elems| {
      var c := Convert(from, x.elems[i], to);
      if c.Done? {
        ElemsOff(from, x, i + 1, to, acc + [c.value]);
        var o := ConvertElems(from, x, i + 1, to, acc + [c.value]);
        if o.Done? {
          assert o.value[..|acc|] == (acc + [c.value])[..|acc|];
          assert o.value[|acc|] == (acc + [c.value])[|acc|];
        }
      }
    }
  }

  /** With `onauto` unset, an array converts exactly when each element does,
      and each output element is the conversion of the input element at the
      same position. */
  lemma ConvertArrayOff(from: Vocab, es: seq<Value>, to: Vocab)
    requires to.onauto.Off?
    ensures var o := Convert(from, Arr(es), to);
            && (o.Done? <==> forall k :: 0 <= k < |es| ==> Convert(from, es[k], to).Done?)
            && (o.Done? ==> forall k :: 0 <= k < |es| ==> Convert(from, es[k], to) == Done(to, o.value.elems[k]))
  {
    ElemsOff(from, Arr(es), 0, to, []);
  }

  /** `convert(a)` with `to` undefined, as the array branch of index.js calls
      it: primitives come back unchanged, a nested array gets the same treatment
      with `undefined` pushed after each element, an object with a key fails on
      `undefined._match`, and an object without keys comes back empty. */
  function ConvertUntargeted(x: Value): (r: Result<Value>)
    ensures IsPrimitive(x) ==> r == Ok(x)
    ensures x.Obj? && |x.fields| > 0 ==> r == Err(UndefinedTarget)
    ensures x.Other? ==> r == Err(UnsupportedType(x.kind))
    ensures x.Obj? && |x.fields| == 0 ==> r == Ok(Obj([]))
    ensures x.Arr? ==> (r.Ok? <==> forall k :: 0 <= k < |x.elems| ==> ConvertUntargeted(x.elems[k]).Ok?)
    ensures r.Ok? && x.Arr? ==> r.value.Arr? && |r.value.elems| == 2 * |x.elems|
    ensures r.Ok? && x.Arr? ==> forall k :: 0 <= k < |x.elems| ==>
              && ConvertUntargeted(x.elems[k]).Ok?
              && r.value.elems[2 * k] == ConvertUntargeted(x.elems[k]).value
              && r.value.elems[2 * k + 1] == Undef
    decreases x, 1
  {
    match x
    case Arr(_) =>
      (match UntargetedElems(x, 0, [])
       case Ok(es) => Ok(Arr(es))
       case Err(e) => Err(e))
    case Obj(fields) => if |fields| == 0 then Ok(Obj([])) else Err(UndefinedTarget)
    case Other(kind) => Err(UnsupportedType(kind))
    case _ => Ok(x)
  }

  /** The loop of the untargeted array branch from index i: each element
      pushes its own untargeted conversion followed by `undefined`. */
  function UntargetedElems(x: Value, i: nat, acc: seq<Value>): (r: Result<seq<Value>>)
    requires x.Arr? && i <= |x.elems|
    requires |acc| == 2 * i
    ensures r.Ok? <==> forall k :: i <= k < |x.elems| ==> ConvertUntargeted(x.elems[k]).Ok?
    ensures r.Ok? ==> |r.value| == 2 * |x.elems|
    ensures r.Ok? ==> r.value[..|acc|] == acc
    ensures r.Ok? ==> forall k :: i <= k < |x.elems| ==>
              && ConvertUntargeted(x.elems[k]).Ok?
              && r.value[2 * k] == ConvertUntargeted(x.elems[k]).value
              && r.value[2 * k + 1] == Undef
    decreases x, 0, |x.elems| - i
  {
    if i == |x.elems| then Ok(acc)
    else match ConvertUntargeted(x.elems[i])
      case Ok(v) =>
        var acc' := acc + [v, Undef];
        var r := UntargetedElems(x, i + 1, acc');
        assert r.Ok? ==> r.value[..|acc|] == acc'[..|acc|] == acc && r.value[2 * i] == v && r.value[2 * i + 1] == Undef;
        r
      case Err(e) => Err(e)
  }

  /** An entry of an array built by the array branch as written: a converted
      element, or the target vocabulary object itself. */
  datatype Pushed = Item(value: Value) | TargetVocab(vocab: Vocab)

  /** The array branch of `convert` as written (index.js:123-129):
      `result.push(convert(a), to)` converts each element with no target and
      pushes the target vocabulary after it. */
  function ConvertArrayAsWritten(x: Value, to: Vocab): (r: Result<seq<Pushed>>)
    requires x.Arr?
    ensures r.Ok? <==> forall k :: 0 <= k < |x.elems| ==> ConvertUntargeted(x.elems[k]).Ok?
    ensures r.Ok? ==> |r.value| == 2 * |x.elems|
    ensures r.Ok? ==> forall p :: 0 <= p < |r.value| ==> (r.value[p] == TargetVocab(to) <==> p % 2 == 1)
    ensures r.Ok? ==> forall k :: 0 <= k < |x.elems| ==>
              ConvertUntargeted(x.elems[k]).Ok? && r.value[2 * k] == Item(ConvertUntargeted(x.elems[k]).value)
  {
    AsWrittenElems(x, 0, to, [])
  }

  function AsWrittenElems(x: Value, i: nat, to: Vocab, acc: seq<Pushed>): (r: Result<seq<Pushed>>)
    requires x.Arr? && i <= |x.elems|
    requires |acc| == 2 * i
    requires forall p :: 0 <= p < |acc| ==> (acc[p] == TargetVocab(to) <==> p % 2 == 1)
    ensures r.Ok? <==> forall k :: i <= k < |x.elems| ==> ConvertUntargeted(x.elems[k]).Ok?
    ensures r.Ok? ==> |r.value| == 2 * |x.elems|
    ensures r.Ok? ==> r.value[..|acc|] == acc
    ensures r.Ok? ==> forall p :: 0 <= p < |r.value| ==> (r.value[p] == TargetVocab(to) <==> p % 2 == 1)
    ensures r.Ok? ==> forall k :: i <= k < |x.elems| ==>
              ConvertUntargeted(x.elems[k]).Ok? && r.value[2 * k] == Item(ConvertUntargeted(x.elems[k]).value)
    decreases |x.elems| - i
  {
    if i == |x.elems| then Ok(acc)
    else match ConvertUntargeted(x.elems[i])
      case Ok(v) =>
        var acc' := acc + [Item(v), TargetVocab(to)];
        var r := AsWrittenElems(x, i + 1, to, acc');
        assert r.Ok? ==> r.value[..|acc|] == acc'[..|acc|] == acc && r.value[2 * i] == Item(v);
        r
      case Err(e) => Err(e)
  }

  /** The array branch as written differs from element-wise conversion: a
      one-element array of a number comes back with the target vocabulary as a
      second element, and an array holding an object with a key throws. */
  lemma ArrayAsWrittenCounterexample(from: Vocab, to: Vocab)
    ensures ConvertArrayAsWritten(Arr([Number(20)]), to) == Ok([Item(Number(20)), TargetVocab(to)])
    ensures Convert(from, Arr([Number(20)]), to) == Done(to, Arr([Number(20)]))
    ensures ConvertArrayAsWritten(Arr([Obj([("age", Number(20))])]), to) == Err(UndefinedTarget)
  {
    assert ConvertUntargeted(Number(20)) == Ok(Number(20));
    assert [] + [Item(Number(20)), TargetVocab(to)] == [Item(Number(20)), TargetVocab(to)];
    assert AsWrittenElems(Arr([Number(20)]), 1, to, [Item(Number(20)), TargetVocab(to)])
        == Ok([Item(Number(20)), TargetVocab(to)]);
    assert ConvertUntargeted(Obj([("age", Number(20))])) == Err(UndefinedTarget);
    var ce := ConvertElems(from, Arr([Number(20)]), 0, to, []);
    assert Convert(from, Number(20), to) == Done(to, Number(20));
    assert [] + [Number(20)] == [Number(20)];
    assert ConvertElems(from, Arr([Number(20)]), 1, to, [Number(20)]) == Done(to, [Number(20)]);
  }
}

=== FILE: invariants.dfy ===
/** Registry invariants: which uniqueness promises the code keeps and under
    what conditions. */
module Invariants {
  import opened JsText
  import opened Records
  import opened Allocator
  import opened Registry
  import opened Matcher
  import opened Converter

  /** No two records of a vocabulary share a definition. */
  ghost predicate DefsDisjoint(recs: seq<Rec>)
  {
    forall i, j :: 0 <= i < j < |recs| ==> !SharesDef(recs[i].defs, recs[j].defs)
  }

  /** A successful registration keeps definitions disjoint across records:
      its definitions were checked against every existing record. */
  lemma DefinePreservesDefs(v: Vocab, names: NamesArg, defs: DefsArg, rename: bool)
    requires DefsDisjoint(v.recs)
    ensures var o := DefineProperty(v, names, defs, rename);
            !o.Hangs? ==> DefsDisjoint(o.vocab.recs)
  {
    var o := DefineProperty(v, names, defs, rename);
    if o.Done? {
      var recs := o.vocab.recs;
      forall i, j | 0 <= i < j < |recs|
        ensures !SharesDef(recs[i].defs, recs[j].defs)
      {
        if j == |v.recs| {
          assert recs[i] == v.recs[i];
          assert recs[j] == o.value;
        } else {
          assert recs[i] == v.recs[i] && recs[j] == v.recs[j];
        }
      }
    }
  }

  /** Matching keeps definitions disjoint: adoption registers only definitions
      no record shares. */
  lemma MatchPreservesDefs(v: Vocab, target: Option<Rec>)
    requires DefsDisjoint(v.recs)
    ensures var o := Match(v, target);
            !o.Hangs? ==> DefsDisjoint(o.vocab.recs)
  {
    if target.Some? && FirstSharing(v.recs, target.value.defs).None? && !v.onauto.Off? {
      DefinePreservesDefs(v, NameList(target.value.names), DefList(target.value.defs), true);
    }
  }

  /** Conversion, even when it auto-registers records in the target, keeps the
      target's definitions disjoint across records. */
  lemma {:induction false} ConvertPreservesDefs(from: Vocab, x: Value, to: Vocab)
    requires DefsDisjoint(to.recs)
    ensures var o := Convert(from, x, to);
            !o.Hangs? ==> DefsDisjoint(o.vocab.recs)
    decreases x, 1
  {
    match x
    case Arr(_) => ElemsPreserveDefs(from, x, 0, to, []);
    case Obj(_) => FieldsPreserveDefs(from, x, 0, to, []);
    case _ =>
  }

  lemma {:induction false} ElemsPreserveDefs(from: Vocab, x: Value, i: nat, to: Vocab, acc: seq<Value>)
    requires x.Arr? && i <= |x.elems|
    requires DefsDisjoint(to.recs)
    ensures var o := ConvertElems(from, x, i, to, acc);
            !o.Hangs? ==> DefsDisjoint(o.vocab.recs)
    decreases x, 0, |x.elems| - i
  {
    if i < |x.elems| {
      ConvertPreservesDefs(from, x.elems[i], to);
      var c := Convert(from, x.elems[i], to);
      if c.Done? {
        ElemsPreserveDefs(from, x, i + 1, c.vocab, acc + [c.value]);
      }
    }
  }

  lemma {:induction false} FieldsPreserveDefs(from: Vocab, x: Value, i: nat, to: Vocab, acc: seq<(string, Value)>)
    requires x.Obj? && i <= |x.fields|
    requires DefsDisjoint(to.recs)
    ensures var o := ConvertFields(from, x, i, to, acc);
            !o.Hangs? ==> DefsDisjoint(o.vocab.recs)
    decreases x, 0, |x.fields| - i, 1
  {
    if i < |x.fields| {
      var key := x.fields[i].0;
      MatchPreservesDefs(to, ByName(from.recs, key));
      var m := Match(to, ByName(from.recs, key));
      if m.Done? {
        if m.value.None? {
          FieldsPreserveDefs(from, x, i + 1, m.vocab, acc);
        } else {
          FoundPreservesDefs(from, x, i, to, acc);
        }
      }
    }
  }

  /** The step of FieldsPreserveDefs where the key's record is found in the target. */
  lemma {:induction false} FoundPreservesDefs(from: Vocab, x: Value, i: nat, to: Vocab, acc: seq<(string, Value)>)
    requires x.Obj? && i < |x.fields|
    requires var m := Match(to, ByName(from.recs, x.fields[i].0));
             m.Done? && m.value.Some? && DefsDisjoint(m.vocab.recs)
    ensures var o := ConvertFields(from, x, i, to, acc);
            !o.Hangs? ==> DefsDisjoint(o.vocab.recs)
    decreases x, 0, |x.fields| - i, 0
  {
    var m := Match(to, ByName(from.recs, x.fields[i].0));
    var val := x.fields[i].1;
    assert val < x;
    ConvertPreservesDefs(from, val, m.vocab);
    var c := Convert(from, val, m.vocab);
    if c.Done? {
      FieldsPreserveDefs(from, x, i + 1, c.vocab, Put(acc, Canonical(m.value.value), c.value));
    }
  }

  /** All names of all records, in registration order. */
  function AllNames(recs: seq<Rec>): seq<string>
    decreases |recs|
  {
    if |recs| == 0 then [] else AllNames(recs[..|recs| - 1]) + recs[|recs| - 1].names
  }

  predicate Distinct(s: seq<string>)
  {
    forall i, j :: 0 <= i < j < |s| ==> s[i] != s[j]
  }

  /** `NameUsed` scans exactly the names of AllNames. */
  lemma {:induction false} NameUsedIsInAllNames(recs: seq<Rec>, n: string)
    ensures NameUsed(recs, n) <==> n in AllNames(recs)
    decreases |recs|
  {
    if |recs| > 0 {
      var init := recs[..|recs| - 1];
      NameUsedIsInAllNames(init, n);
      assert recs == init + [recs[|recs| - 1]];
      if NameUsed(recs, n) {
        var r :| r in recs && n in r.names;
        if r != recs[|recs| - 1] {
          assert r in init;
        }
      }
      if NameUsed(init, n) {
        var r :| r in init && n in r.names;
        assert r in recs;
      }
    }
  }

  lemma DistinctAppend(a: seq<string>, b: seq<string>)
    requires Distinct(a) && Distinct(b)
    requires forall p :: 0 <= p < |b| ==> b[p] !in a
    ensures Distinct(a + b)
  {
    var all := a + b;
    forall i, j | 0 <= i < j < |all|
      ensures all[i] != all[j]
    {
      if j >= |a| && i < |a| {
        assert all[j] == b[j - |a|];
      } else if i >= |a| {
        assert all[i] == b[i - |a|] && all[j] == b[j - |a|];
      }
    }
  }

  /** Appending a record whose names are distinct and unused keeps all names distinct. */
  lemma AppendFreshNames(recs: seq<Rec>, r: Rec)
    requires Distinct(AllNames(recs)) && Distinct(r.names)
    requires forall p :: 0 <= p < |r.names| ==> !NameUsed(recs, r.names[p])
    ensures Distinct(AllNames(recs + [r]))
  {
    var recs' := recs + [r];
    assert recs'[..|recs'| - 1] == recs;
    forall p | 0 <= p < |r.names|
      ensures r.names[p] !in AllNames(recs)
    {
      NameUsedIsInAllNames(recs, r.names[p]);
    }
    DistinctAppend(AllNames(recs), r.names);
  }

  /** Without renaming, registering distinct names keeps every name of the
      vocabulary distinct: each was checked against every existing record. */
  lemma DefineKeepsNamesDistinct(v: Vocab, names: NamesArg, defs: DefsArg)
    requires Distinct(AllNames(v.recs))
    requires Distinct(NamesOf(names))
    ensures var o := DefineProperty(v, names, defs, false);
            o.Done? ==> Distinct(AllNames(o.vocab.recs))
  {
    var o := DefineProperty(v, names, defs, false);
    DefineWithoutRename(v, names, defs);
    if o.Done? {
      AppendFreshNames(v.recs, o.value);
    }
  }
}

=== FILE: jstext.dfy ===
/** The two pieces of JavaScript string behaviour the vocabulary engine relies on:
    the decimal rendering of a counter (`name + '_' + count`) and
    `String.prototype.split(' ')`, used to turn a names string into a names list. */
module JsText {

  /** The character for one decimal digit. */
  function Digit(d: nat): (c: char)
    requires d < 10
    ensures '0' <= c <= '9'
  {
    ('0' as int + d) as char
  }

  /** JavaScript's `String(n)` for a non-negative integer counter. */
  function Dec(n: nat): (s: string)
    ensures |s| >= 1
    ensures forall i :: 0 <= i < |s| ==> '0' <= s[i] <= '9'
    ensures n >= 10 ==> |s| >= 2
  {
    if n < 10 then [Digit(n)] else Dec(n / 10) + [Digit(n % 10)]
  }

  /** The number a string of decimal digits spells, most significant digit
      first; an independent reading of what `Dec` writes. */
  function DigitsValue(s: string): nat
    decreases |s|
  {
    if |s| == 0 then 0
    else
      var d := s[|s| - 1] as int - '0' as int;
      DigitsValue(s[..|s| - 1]) * 10 + (if 0 <= d < 10 then d else 0)
  }

  /** `Dec(n)` spells n, with no leading zero except for 0 itself. */
  lemma {:induction false} DecValue(n: nat)
    ensures DigitsValue(Dec(n)) == n
    ensures Dec(n)[0] != '0' || n == 0
  {
    if n >= 10 {
      DecValue(n / 10);
      assert Dec(n)[..|Dec(n)| - 1] == Dec(n / 10);
      assert Dec(n)[0] == Dec(n / 10)[0];
    }
  }

  /** Different counters render differently, so candidate names never repeat. */
  lemma {:induction false} DecInjective(a: nat, b: nat)
    requires Dec(a) == Dec(b)
    ensures a == b
  {
    if a >= 10 && b >= 10 {
      var sa, sb := Dec(a), Dec(b);
      assert Dec(a / 10) == sa[..|sa| - 1];
      assert Dec(b / 10) == sb[..|sb| - 1];
      DecInjective(a / 10, b / 10);
      assert Digit(a % 10) == sa[|sa| - 1] == sb[|sb| - 1] == Digit(b % 10);
    }
  }

  /** The name `base_k` that the allocator tries for counter value k. */
  function Candidate(base: string, k: nat): string
  {
    base + "_" + Dec(k)
  }

  /** The name the allocator forms once its counter has become NaN. */
  function NaNName(base: string): string
  {
    base + "_NaN"
  }

  lemma CandidateInjective(base: string, j: nat, k: nat)
    requires Candidate(base, j) == Candidate(base, k)
    ensures j == k
  {
    var n := |base| + 1;
    assert Dec(j) == Candidate(base, j)[n..];
    assert Dec(k) == Candidate(base, k)[n..];
    DecInjective(j, k);
  }

  /** In `base_k` the character after the base is the last underscore. */
  lemma CandidateShape(base: string, k: nat)
    ensures Candidate(base, k)[|base|] == '_'
    ensures forall p :: |base| < p < |Candidate(base, k)| ==> Candidate(base, k)[p] != '_'
  {
    var s := Candidate(base, k);
    forall p | |base| < p < |s|
      ensures s[p] != '_'
    {
      assert s[p] == Dec(k)[p - |base| - 1];
    }
  }

  /** Two candidates from different bases never coincide. */
  lemma CandidateInjectiveAcross(b1: string, j: nat, b2: string, k: nat)
    requires Candidate(b1, j) == Candidate(b2, k)
    ensures b1 == b2 && j == k
  {
    var s := Candidate(b1, j);
    CandidateShape(b1, j);
    CandidateShape(b2, k);
    assert |b1| == |b2|;
    assert b1 == s[..|b1|] == b2;
    CandidateInjective(b1, j, k);
  }

  /** A NaN name is never a numbered candidate: it ends in `N`, a candidate in a digit. */
  lemma NaNNotCandidate(b1: string, b2: string, k: nat)
    ensures NaNName(b1) != Candidate(b2, k)
  {
    var c := Candidate(b2, k);
    assert c[|c| - 1] == Dec(k)[|Dec(k)| - 1];
  }

  /** `s.split(' ')`: cut at every single space; never empty, and empty
      parts appear for leading, trailing and doubled spaces. */
  function Split(s: string): (parts: seq<string>)
    ensures |parts| >= 1
  {
    if |s| == 0 then [""]
    else
      var rest := Split(s[1..]);
      if s[0] == ' ' then [""] + rest
      else [[s[0]] + rest[0]] + rest[1..]
  }

  /** `parts.join(' ')`, the partner of Split. */
  function Join(parts: seq<string>): string
    requires |parts| >= 1
  {
    if |parts| == 1 then parts[0] else parts[0] + " " + Join(parts[1..])
  }

  predicate NoSpace(w: string)
  {
    forall i :: 0 <= i < |w| ==> w[i] != ' '
  }

  /** Splitting loses nothing: the parts join back to the input. */
  lemma {:induction false} JoinSplit(s: string)
    ensures Join(Split(s)) == s
  {
    if |s| > 0 {
      var rest := Split(s[1..]);
      JoinSplit(s[1..]);
      if s[0] == ' ' {
        assert Split(s) == [""] + rest;
        assert Split(s)[1..] == rest;
      } else {
        var parts := Split(s);
        assert parts == [[s[0]] + rest[0]] + rest[1..];
        if |rest| == 1 {
          assert Join(parts) == [s[0]] + rest[0];
        } else {
          assert parts[1..] == rest[1..];
          assert Join(rest) == rest[0] + " " + Join(rest[1..]);
          assert Join(parts) == [s[0]] + rest[0] + " " + Join(rest[1..]);
        }
        assert s == [s[0]] + s[1..];
      }
    }
  }

  /** No part of a split contains a space. */
  lemma {:induction false} SplitNoSpace(s: string)
    ensures forall i :: 0 <= i < |Split(s)| ==> NoSpace(Split(s)[i])
  {
    if |s| > 0 {
      SplitNoSpace(s[1..]);
      var rest := Split(s[1..]);
      if s[0] != ' ' {
        var first := [s[0]] + rest[0];
        assert NoSpace(rest[0]);
        assert NoSpace(first);
      }
    }
  }

  lemma {:induction false} SplitWord(w: string, t: string)
    requires NoSpace(w)
    ensures Split(w) == [w]
    ensures Split(w + " " + t) == [w] + Split(t)
  {
    if |w| > 0 {
      SplitWord(w[1..], t);
      assert (w + " " + t)[1..] == w[1..] + " " + t;
      assert [w[0]] + w[1..] == w;
    } else {
      assert w + " " + t == " " + t;
      assert (" " + t)[1..] == t;
    }
  }

  /** Joining space-free words and splitting again gives the words back. */
  lemma {:induction false} SplitJoin(parts: seq<string>)
    requires |parts| >= 1
    requires forall i :: 0 <= i < |parts| ==> NoSpace(parts[i])
    ensures Split(Join(parts)) == parts
  {
    if |parts| == 1 {
      SplitWord(parts[0], "");
    } else {
      SplitJoin(parts[1..]);
      SplitWord(parts[0], Join(parts[1..]));
    }
  }
}

=== FILE: matcher.dfy ===
/** The matcher (`match`, exposed to other vocabularies as `_match`) and the
    name lookup `byName`. */
module Matcher {
  import opened Records
  import opened Registry

  /** `byName(name)`: the first record, in registration order, that lists the
      name at any position of its names; None when no record does. */
  function ByName(recs: seq<Rec>, name: string): (r: Option<Rec>)
    ensures r.None? <==> !NameUsed(recs, name)
    ensures r.Some? ==> exists i :: && 0 <= i < |recs| && recs[i] == r.value
                                    && name in recs[i].names
                                    && forall j :: 0 <= j < i ==> name !in recs[j].names
    decreases |recs|
  {
    if |recs| == 0 then None
    else if name in recs[0].names then Some(recs[0])
    else
      var r := ByName(recs[1..], name);
      assert forall x :: x in recs[1..] ==> x in recs;
      assert NameUsed(recs[1..], name) ==> NameUsed(recs, name);
      assert recs == [recs[0]] + recs[1..];
      if r.Some? then
        ghost var i :| && 0 <= i < |recs[1..]| && recs[1..][i] == r.value
                       && name in recs[1..][i].names
                       && forall j :: 0 <= j < i ==> name !in recs[1..][j].names;
        assert recs[i + 1] == r.value;
        r
      else r
  }

  /** Some record of `recs` has a definition, so the scan of `match` reaches
      the incoming record's `defs`. */
  predicate ReadsTargetDefs(recs: seq<Rec>)
  {
    exists r | r in recs :: |r.defs| > 0
  }

  /** `match(target)` on vocabulary v. `target` is None for JavaScript `null`,
      which is what `byName` hands over for an unregistered key: reading its
      `defs` or `names` throws a TypeError. Otherwise the first record sharing a
      definition is returned; with no such record and `onauto` set, the target's
      names and definitions are registered with renaming on (and handed to the
      callback when `onauto` is one); with `onauto` unset the result is null. */
  function Match(v: Vocab, target: Option<Rec>): (o: Outcome<Option<Rec>>)
    ensures target.None? ==>
              o == (if ReadsTargetDefs(v.recs) || !v.onauto.Off? then Threw(v, NullTarget) else Done(v, None))
    ensures target.Some? ==> match FirstSharing(v.recs, target.value.defs)
              case Some(j) => o == Done(v, Some(v.recs[j]))
              case None => v.onauto.Off? ==> o == Done(v, None)
    ensures v.onauto.Off? ==> o.Done? || o.Threw?
    ensures v.onauto.Off? && !o.Hangs? ==> o.vocab == v
    ensures o.Done? && o.value.Some? ==> o.value.value in o.vocab.recs
    ensures !o.Hangs? ==> o.vocab.onauto == v.onauto
  {
    match target
    case None => if ReadsTargetDefs(v.recs) || !v.onauto.Off? then Threw(v, NullTarget) else Done(v, None)
    case Some(t) =>
      match FirstSharing(v.recs, t.defs)
      case Some(j) => Done(v, Some(v.recs[j]))
      case None =>
        if v.onauto.Off? then Done(v, None)
        else match DefineProperty(v, NameList(t.names), DefList(t.defs), true)
          case Hangs => Hangs
          case Threw(v1, e) => Threw(v1, e)
          case Done(v1, r) =>
            var v2 := if v.onauto.Notify? then v1.(notified := v1.notified + [r]) else v1;
            Done(v2, Some(r))
  }

  /** Auto-registration: when nothing matches and `onauto` is set, exactly one
      record is appended, carrying the target's definitions, and it is the one
      returned; the callback sees exactly that record. It cannot fail on a
      definition conflict (no existing definition matched) nor on a name
      conflict (renaming is on). It returns whenever the target has names and
      definitions and each of its names that a record here uses holds a
      numeric count. The adopted names are the target's, each kept or renamed
      by `uniqueVersion` as registration with renaming does. */
  lemma AutoRegisters(v: Vocab, t: Rec)
    requires FirstSharing(v.recs, t.defs).None?
    requires !v.onauto.Off?
    ensures var o := Match(v, Some(t));
            && (|t.names| > 0 && |t.defs| > 0 && UsedHaveCounts(v.recs, v.ledger, t.names) ==> o.Done?)
            && !(o.Threw? && (o.error.DefinitionConflict? || o.error.NameConflict?))
            && (o.Threw? ==> o.error.EmptyNames? || o.error.EmptyDefs?)
            && (o.Threw? ==> o.vocab.recs == v.recs)
            && (o.Done? ==> && o.value.Some?
                            && o.vocab.recs == v.recs + [o.value.value]
                            && o.value.value.defs == t.defs
                            && |o.value.value.names| == |t.names|
                            && o.vocab.notified == (if v.onauto.Notify? then v.notified + [o.value.value] else v.notified))
    ensures var o := Match(v, Some(t));
            o.Done? ==> KeepsOrRenames(v.recs, v.ledger, t.names, true, o.value.value.names)
  {
    DefineWithRename(v, NameList(t.names), DefList(t.defs));
    var d := DefineProperty(v, NameList(t.names), DefList(t.defs), true);
    if d.Done? {
      DefinedNames(v, NameList(t.names), DefList(t.defs), true);
    }
  }
}

=== FILE: records.dfy ===
/** The state of one vocabulary (the closure variables of `create` in index.js)
    and the shapes every operation returns. */
module Records {
  import opened JsText

  datatype Option<T> = None | Some(value: T)

  /** A property record: its names (the first is canonical) and its definitions. */
  datatype Rec = Rec(names: seq<string>, defs: seq<string>)

  /** A value stored in the name ledger. `undefined++` in JavaScript is NaN,
      and NaN is what the allocator stores once it starts from a missing entry. */
  datatype Count = At(n: nat) | NaN

  /** `nameCount`: claimed names map to 1, allocator bases to their last counter. */
  type Ledger = map<string, Count>

  /** The `onauto` slot: falsy, `true`, or a callback. */
  datatype AutoMode = Off | Silent | Notify

  /** One vocabulary. `notified` lists, in order, the records handed to an
      `onauto` callback; the callback's own code is not modelled. */
  datatype Vocab = Vocab(recs: seq<Rec>, ledger: Ledger, onauto: AutoMode, notified: seq<Rec>)

  datatype Error =
    | EmptyNames                                    // names must be string or non-empty array
    | EmptyDefs                                     // defs must be string or non-empty array
    | NameConflict(name: string)                    // Property name X already used
    | DefinitionConflict(name: string, owner: string) // Property def of X already used by Y
    | NullTarget                                    // TypeError: `match(null)` reads `null.defs` or `null.names`
    | UndefinedTarget                               // TypeError: `undefined._match` in an untargeted convert
    | UnsupportedType(kind: string)                 // TypeError thrown by convert for other types

  /** What a call into the vocabulary leaves behind. A JavaScript exception does
      not undo the mutations made before it, so `Threw` carries the state too.
      `Hangs` is a call whose loop never exits. */
  datatype Outcome<T> = Done(vocab: Vocab, value: T) | Threw(vocab: Vocab, error: Error) | Hangs

  /** An outcome of a computation that changes no state. */
  datatype Result<T> = Ok(value: T) | Err(error: Error)

  /** A fresh vocabulary: no records, empty ledger, `onauto` null. */
  function Create(): Vocab
  {
    Vocab([], map[], Off, [])
  }

  /** `rec.names[0]` used as a property key: an empty names list reads as
      `undefined`, which becomes the key "undefined". */
  function Canonical(r: Rec): string
  {
    if |r.names| > 0 then r.names[0] else "undefined"
  }

  /** Errors whose message text is written in index.js. */
  predicate Authored(e: Error)
  {
    !e.NullTarget? && !e.UndefinedTarget?
  }

  /** The message of an error thrown by index.js itself. */
  function Message(e: Error): string
    requires Authored(e)
  {
    match e
    case EmptyNames => "names must be string or non-empty array"
    case EmptyDefs => "defs must be string or non-empty array"
    case NameConflict(n) => "Property name " + n + " already used"
    case DefinitionConflict(n, o) => "Property def of " + n + " already used by " + o
    case UnsupportedType(k) => "vocabspec unable to convert type " + k
  }

  /** The names a conflict reports, and the type `convert` rejects, can be
      read back from the message text at fixed positions. */
  lemma MessageReadsBack(e: Error)
    requires Authored(e)
    ensures var m := Message(e);
            && (e.NameConflict? ==> |m| == |e.name| + 27 && m[14..14 + |e.name|] == e.name)
            && (e.DefinitionConflict? ==>
                  && |m| == |e.name| + |e.owner| + 33
                  && m[16..16 + |e.name|] == e.name
                  && m[|m| - |e.owner|..] == e.owner)
            && (e.UnsupportedType? ==> |m| == |e.kind| + 33 && m[33..] == e.kind)
  {
  }
}

=== FILE: registry.dfy ===
/** The property registry: `defineProperty` and the scans it shares with the matcher. */
module Registry {
  import opened JsText
  import opened Records
  import opened Allocator

  /** The `names` argument: a string, or an array of names. */
  datatype NamesArg = Words(s: string) | NameList(list: seq<string>)

  /** The `defs` argument: a string, or an array of definitions. */
  datatype DefsArg = OneDef(d: string) | DefList(list: seq<string>)

  /** A names string is split at every space; an array is used as it is. */
  function NamesOf(a: NamesArg): (r: seq<string>)
    ensures a.Words? ==> |r| >= 1 && Join(r) == a.s && forall i :: 0 <= i < |r| ==> NoSpace(r[i])
    ensures a.NameList? ==> r == a.list
  {
    match a
    case Words(s) => JoinSplit(s); SplitNoSpace(s); Split(s)
    case NameList(l) => l
  }

  /** A definitions string becomes a one-element list, so only an empty array
      gives an empty list, and the list holds exactly the given definitions. */
  function DefsOf(a: DefsArg): (r: seq<string>)
    ensures |r| == 0 <==> a == DefList([])
    ensures forall d :: d in r <==> (a.OneDef? && d == a.d) || (a.DefList? && d in a.list)
    ensures a.OneDef? ==> r == [a.d]
    ensures a.DefList? ==> r == a.list
  {
    match a
    case OneDef(d) => [d]
    case DefList(l) => l
  }

  /** Some record lists `name` among its names, at any position. */
  predicate NameUsed(recs: seq<Rec>, name: string)
  {
    exists r | r in recs :: name in r.names
  }

  /** Two definition lists have a string in common. */
  predicate SharesDef(a: seq<string>, b: seq<string>)
  {
    exists d | d in a :: d in b
  }

  /** The index of the first record, in registration order, that shares a
      definition with `defs`. */
  function FirstSharing(recs: seq<Rec>, defs: seq<string>): (r: Option<nat>)
    ensures r.Some? ==> r.value < |recs| && SharesDef(recs[r.value].defs, defs)
    ensures r.Some? ==> forall j :: 0 <= j < r.value ==> !SharesDef(recs[j].defs, defs)
    ensures r.None? <==> forall j :: 0 <= j < |recs| ==> !SharesDef(recs[j].defs, defs)
    decreases |recs|
  {
    if |recs| == 0 then None
    else if SharesDef(recs[0].defs, defs) then Some(0)
    else match FirstSharing(recs[1..], defs)
      case None => None
      case Some(i) => Some(i + 1)
  }

  /** n was produced by the allocator from `base`. */
  ghost predicate IsVersionOf(n: string, base: string)
  {
    n == NaNName(base) || exists k: nat :: k >= 1 && n == Candidate(base, k)
  }

  /** A generated name determines the name it was generated from. */
  lemma VersionDeterminesBase(n: string, b1: string, b2: string)
    requires IsVersionOf(n, b1) && IsVersionOf(n, b2)
    ensures b1 == b2
  {
    if n == NaNName(b1) && n == NaNName(b2) {
      assert |b1| == |b2|;
      assert b1 == n[..|b1|] == b2;
    } else if n == NaNName(b1) {
      forall k: nat ensures Candidate(b2, k) != n { NaNNotCandidate(b1, b2, k); }
    } else if n == NaNName(b2) {
      forall j: nat ensures Candidate(b1, j) != n { NaNNotCandidate(b2, b1, j); }
    } else {
      var j: nat :| j >= 1 && n == Candidate(b1, j);
      var k: nat :| k >= 1 && n == Candidate(b2, k);
      CandidateInjectiveAcross(b1, j, b2, k);
    }
  }

  /** How one turn of the names loop of `defineProperty` ends: the name is
      taken (claimed as it is, or replaced by an allocator name), it clashes,
      or the allocator spins. */
  datatype NameStep = Took(ledger: Ledger, name: string) | Clash | Stuck

  /** One turn of the names loop: a name no existing record uses is claimed;
      a used one is renamed when renaming is on and clashes otherwise. */
  function ResolveOne(recs: seq<Rec>, ledger: Ledger, name: string, rename: bool): (s: NameStep)
    ensures !NameUsed(recs, name) ==> s == Took(ClaimName(ledger, name), name)
    ensures NameUsed(recs, name) && !rename ==> s.Clash?
    ensures NameUsed(recs, name) && rename ==> !s.Clash?
    ensures NameUsed(recs, name) && s.Took? ==> s.name !in ledger && IsVersionOf(s.name, name)
    ensures NameUsed(recs, name) && rename ==>
              && (s.Stuck? <==> UniqueVersion(ledger, name).Spins?)
              && (s.Took? ==> s == Took(UniqueVersion(ledger, name).ledger, UniqueVersion(ledger, name).name))
    ensures s.Took? ==> s.ledger.Keys == ledger.Keys + {name}
    ensures s.Took? ==> forall n :: n in ledger && ledger[n].At? ==> s.ledger[n].At?
  {
    if !NameUsed(recs, name) then Took(ClaimName(ledger, name), name)
    else if !rename then Clash
    else match UniqueVersion(ledger, name)
      case Spins => Stuck
      case Allocated(l, n) => Took(l, n)
  }

  /** How the whole names loop ends. */
  datatype Resolution =
    | Resolved(ledger: Ledger, names: seq<string>)
    | Conflict(ledger: Ledger, name: string)
    | Spun

  /** The names loop of `defineProperty`, left to right. Names are checked
      against the existing records only, never against the other names of the
      same call; a clash ends the loop with the earlier claims kept. */
  function ResolveNames(recs: seq<Rec>, ledger: Ledger, names: seq<string>, rename: bool): (r: Resolution)
    ensures r.Resolved? ==> |r.names| == |names|
    decreases |names|
  {
    if |names| == 0 then Resolved(ledger, [])
    else match ResolveOne(recs, ledger, names[0], rename)
      case Clash => Conflict(ledger, names[0])
      case Stuck => Spun
      case Took(l1, n1) =>
        var rest := ResolveNames(recs, l1, names[1..], rename);
        if rest.Resolved? then Resolved(rest.ledger, [n1] + rest.names) else rest
  }

  /** A completed names loop leaves every input name a ledger key and adds no other. */
  lemma {:induction false} ResolvedKeys(recs: seq<Rec>, ledger: Ledger, names: seq<string>, rename: bool)
    requires ResolveNames(recs, ledger, names, rename).Resolved?
    ensures ResolveNames(recs, ledger, names, rename).ledger.Keys == ledger.Keys + set n | n in names
    decreases |names|
  {
    if |names| > 0 {
      var step := ResolveOne(recs, ledger, names[0], rename);
      ResolvedKeys(recs, step.ledger, names[1..], rename);
      assert (set n | n in names) == {names[0]} + set n | n in names[1..];
    }
  }

  /** The ledger the names loop holds when it reaches `names[i]`. */
  ghost function LedgerBefore(recs: seq<Rec>, ledger: Ledger, names: seq<string>, rename: bool, i: nat): Ledger
    requires i <= |names|
    decreases i
  {
    if i == 0 then ledger
    else match ResolveOne(recs, ledger, names[0], rename)
      case Took(l, _) => LedgerBefore(recs, l, names[1..], rename, i - 1)
      case _ => ledger
  }

  /** `out` keeps every name of `names` that no record uses and replaces every
      used one, only when renaming is on, by the name `uniqueVersion` returns
      from the ledger the loop holds at that point, a name that was not a key
      of `ledger`. */
  ghost predicate KeepsOrRenames(recs: seq<Rec>, ledger: Ledger, names: seq<string>, rename: bool, out: seq<string>)
  {
    && |out| == |names|
    && (forall i :: 0 <= i < |names| && !NameUsed(recs, names[i]) ==> out[i] == names[i])
    && (forall i :: 0 <= i < |names| && NameUsed(recs, names[i]) ==>
          rename && out[i] !in ledger && IsVersionOf(out[i], names[i]))
    && (forall i :: 0 <= i < |names| && NameUsed(recs, names[i]) ==>
          UniqueVersion(LedgerBefore(recs, ledger, names, rename, i), names[i])
          == Allocated(LedgerBefore(recs, ledger, names, rename, i + 1), out[i]))
  }

  /** A completed names loop keeps every unused name, replaces every used one by
      a fresh allocator name, and leaves every input name a ledger key. */
  lemma {:induction false} ResolvedNames(recs: seq<Rec>, ledger: Ledger, names: seq<string>, rename: bool)
    requires ResolveNames(recs, ledger, names, rename).Resolved?
    ensures var r := ResolveNames(recs, ledger, names, rename);
            && KeepsOrRenames(recs, ledger, names, rename, r.names)
            && r.ledger.Keys == ledger.Keys + set n | n in names
            && r.ledger == LedgerBefore(recs, ledger, names, rename, |names|)
    decreases |names|
  {
    ResolvedKeys(recs, ledger, names, rename);
    ResolvedLedger(recs, ledger, names, rename);
    if |names| > 0 {
      var step := ResolveOne(recs, ledger, names[0], rename);
      ResolvedNames(recs, step.ledger, names[1..], rename);
      ResolvedHead(recs, ledger, names, rename);
    }
  }

  /** A completed names loop ends with the ledger it holds after its last turn. */
  lemma {:induction false} ResolvedLedger(recs: seq<Rec>, ledger: Ledger, names: seq<string>, rename: bool)
    requires ResolveNames(recs, ledger, names, rename).Resolved?
    ensures ResolveNames(recs, ledger, names, rename).ledger == LedgerBefore(recs, ledger, names, rename, |names|)
    decreases |names|
  {
    if |names| > 0 {
      var step := ResolveOne(recs, ledger, names[0], rename);
      ResolvedLedger(recs, step.ledger, names[1..], rename);
      assert LedgerBefore(recs, ledger, names, rename, |names|)
          == LedgerBefore(recs, step.ledger, names[1..], rename, |names[1..]|);
    }
  }

  /** The step of ResolvedNames past the first name. */
  lemma ResolvedHead(recs: seq<Rec>, ledger: Ledger, names: seq<string>, rename: bool)
    requires |names| > 0 && ResolveNames(recs, ledger, names, rename).Resolved?
    requires var step := ResolveOne(recs, ledger, names[0], rename);
             && step.Took?
             && ResolveNames(recs, step.ledger, names[1..], rename).Resolved?
             && KeepsOrRenames(recs, step.ledger, names[1..], rename, ResolveNames(recs, step.ledger, names[1..], rename).names)
    ensures KeepsOrRenames(recs, ledger, names, rename, ResolveNames(recs, ledger, names, rename).names)
  {
    var r := ResolveNames(recs, ledger, names, rename);
    var step := ResolveOne(recs, ledger, names[0], rename);
    var r1 := ResolveNames(recs, step.ledger, names[1..], rename);
    assert r.names == [step.name] + r1.names;
    forall i | 0 <= i < |names|
      ensures !NameUsed(recs, names[i]) ==> r.names[i] == names[i]
      ensures NameUsed(recs, names[i]) ==> rename && r.names[i] !in ledger && IsVersionOf(r.names[i], names[i])
      ensures NameUsed(recs, names[i]) ==>
                UniqueVersion(LedgerBefore(recs, ledger, names, rename, i), names[i])
                == Allocated(LedgerBefore(recs, ledger, names, rename, i + 1), r.names[i])
    {
      assert LedgerBefore(recs, ledger, names, rename, i + 1) == LedgerBefore(recs, step.ledger, names[1..], rename, i);
      if i > 0 {
        assert names[i] == names[1..][i - 1];
        assert r.names[i] == r1.names[i - 1];
        assert LedgerBefore(recs, ledger, names, rename, i) == LedgerBefore(recs, step.ledger, names[1..], rename, i - 1);
      }
    }
  }

  /** The index of the first name, in order, that an existing record uses. */
  function FirstUsed(recs: seq<Rec>, names: seq<string>): (r: Option<nat>)
    ensures r.Some? ==> r.value < |names| && NameUsed(recs, names[r.value])
    ensures r.Some? ==> forall j :: 0 <= j < r.value ==> !NameUsed(recs, names[j])
    ensures r.None? <==> forall j :: 0 <= j < |names| ==> !NameUsed(recs, names[j])
    decreases |names|
  {
    if |names| == 0 then None
    else if NameUsed(recs, names[0]) then Some(0)
    else match FirstUsed(recs, names[1..])
      case None => None
      case Some(i) => Some(i + 1)
  }

  /** The outcome of the names loop without renaming, in closed form. */
  function NoRenameOutcome(recs: seq<Rec>, ledger: Ledger, names: seq<string>): Resolution
  {
    match FirstUsed(recs, names)
    case None => Resolved(ClaimAll(ledger, names), names)
    case Some(i) => Conflict(ClaimAll(ledger, names[..i]), names[i])
  }

  /** Without renaming, the names loop claims every name up to the first used
      one and stops there with a conflict, or claims them all. */
  lemma {:induction false} ResolveNoRename(recs: seq<Rec>, ledger: Ledger, names: seq<string>)
    ensures ResolveNames(recs, ledger, names, false) == NoRenameOutcome(recs, ledger, names)
    decreases |names|
  {
    if |names| > 0 {
      if NameUsed(recs, names[0]) {
        assert names[..0] == [];
      } else {
        ResolveNoRename(recs, ClaimName(ledger, names[0]), names[1..]);
        UnusedHead(recs, ledger, names);
      }
    }
  }

  /** The step of ResolveNoRename past an unused first name. */
  lemma UnusedHead(recs: seq<Rec>, ledger: Ledger, names: seq<string>)
    requires |names| > 0 && !NameUsed(recs, names[0])
    requires ResolveNames(recs, ClaimName(ledger, names[0]), names[1..], false)
          == NoRenameOutcome(recs, ClaimName(ledger, names[0]), names[1..])
    ensures ResolveNames(recs, ledger, names, false) == NoRenameOutcome(recs, ledger, names)
  {
    var l1 := ClaimName(ledger, names[0]);
    assert ResolveNames(recs, ledger, names, false) == PrependName(names[0], ResolveNames(recs, l1, names[1..], false));
    match FirstUsed(recs, names[1..])
    case None =>
      assert FirstUsed(recs, names) == None;
      assert ClaimAll(ledger, names) == ClaimAll(l1, names[1..]);
      assert names == [names[0]] + names[1..];
    case Some(i) =>
      assert FirstUsed(recs, names) == Some(i + 1);
      ClaimAllPrefix(ledger, names, i);
      assert names[i + 1] == names[1..][i];
  }

  /** The names loop's result after taking `n` as it is. */
  function PrependName(n: string, rest: Resolution): Resolution
  {
    if rest.Resolved? then Resolved(rest.ledger, [n] + rest.names) else rest
  }

  /** Without renaming the loop never spins; it conflicts exactly when some
      name is used, and otherwise claims every name and keeps the list. */
  lemma ResolveWithoutRename(recs: seq<Rec>, ledger: Ledger, names: seq<string>)
    ensures var r := ResolveNames(recs, ledger, names, false);
            && !r.Spun?
            && (r.Conflict? <==> exists i :: 0 <= i < |names| && NameUsed(recs, names[i]))
            && (r.Resolved? ==> r.names == names && r.ledger == ClaimAll(ledger, names))
  {
    ResolveNoRename(recs, ledger, names);
    var f := FirstUsed(recs, names);
    assert ResolveNames(recs, ledger, names, false) == NoRenameOutcome(recs, ledger, names);
    if f.Some? {
      assert NameUsed(recs, names[f.value]);
    }
  }

  /** Without renaming a conflict reports the first used name, and the names
      before it stay claimed. */
  lemma ConflictReportsFirst(recs: seq<Rec>, ledger: Ledger, names: seq<string>)
    requires ResolveNames(recs, ledger, names, false).Conflict?
    ensures var r := ResolveNames(recs, ledger, names, false);
            exists i :: && 0 <= i < |names|
                        && NameUsed(recs, names[i]) && r.name == names[i]
                        && (forall j :: 0 <= j < i ==> !NameUsed(recs, names[j]))
                        && r.ledger == ClaimAll(ledger, names[..i])
  {
    ResolveNoRename(recs, ledger, names);
    var i := FirstUsed(recs, names).value;
    assert NameUsed(recs, names[i]);
  }

  /** Every requested name that a record uses holds a numeric count in the
      ledger, so `uniqueVersion` counts upwards from it instead of from NaN. */
  ghost predicate UsedHaveCounts(recs: seq<Rec>, ledger: Ledger, names: seq<string>)
  {
    forall i :: 0 <= i < |names| && NameUsed(recs, names[i]) ==> names[i] in ledger && ledger[names[i]].At?
  }

  /** With renaming the loop never conflicts, spins only after meeting a used
      name, and completes whenever every used name holds a numeric count. */
  lemma {:induction false} ResolveWithRename(recs: seq<Rec>, ledger: Ledger, names: seq<string>)
    ensures var r := ResolveNames(recs, ledger, names, true);
            && !r.Conflict?
            && (r.Spun? ==> exists i :: 0 <= i < |names| && NameUsed(recs, names[i]))
            && (UsedHaveCounts(recs, ledger, names) ==> r.Resolved?)
    decreases |names|
  {
    if |names| > 0 {
      var step := ResolveOne(recs, ledger, names[0], true);
      if step.Took? {
        ResolveWithRename(recs, step.ledger, names[1..]);
        if UsedHaveCounts(recs, ledger, names) {
          forall i | 0 <= i < |names[1..]| && NameUsed(recs, names[1..][i])
            ensures names[1..][i] in step.ledger && step.ledger[names[1..][i]].At?
          {
            assert names[1..][i] == names[i + 1];
          }
        }
        if ResolveNames(recs, step.ledger, names[1..], true).Spun? {
          var i :| 0 <= i < |names[1..]| && NameUsed(recs, names[1..][i]);
          assert names[i + 1] == names[1..][i];
        }
      }
    }
  }

  /** `defineProperty(names, defs, options)`, with `rename` standing for
      `options.renameIfConflict`. The empty-list checks come first; then the
      names loop, which may already have claimed names when a later step
      fails; then the definitions are checked against every existing record;
      the record is appended only at the very end. */
  function DefineProperty(v: Vocab, names: NamesArg, defs: DefsArg, rename: bool): (o: Outcome<Rec>)
    ensures |NamesOf(names)| == 0 ==> o == Threw(v, EmptyNames)
    ensures |NamesOf(names)| > 0 && |DefsOf(defs)| == 0 ==> o == Threw(v, EmptyDefs)
    ensures !o.Hangs? ==> o.vocab.onauto == v.onauto && o.vocab.notified == v.notified
    ensures o.Threw? ==> o.vocab.recs == v.recs
    ensures o.Threw? ==> o.error.EmptyNames? || o.error.EmptyDefs? || o.error.NameConflict? || o.error.DefinitionConflict?
    ensures o.Done? ==> && o.vocab.recs == v.recs + [o.value]
                        && o.value.defs == DefsOf(defs)
                        && |o.value.names| == |NamesOf(names)| > 0
    ensures o.Done? ==> forall j :: 0 <= j < |v.recs| ==> !SharesDef(v.recs[j].defs, DefsOf(defs))
    ensures o.Threw? && o.error.DefinitionConflict? ==>
              exists j :: && 0 <= j < |v.recs|
                          && SharesDef(v.recs[j].defs, DefsOf(defs))
                          && (forall i :: 0 <= i < j ==> !SharesDef(v.recs[i].defs, DefsOf(defs)))
                          && o.error.owner == Canonical(v.recs[j])
  {
    var ns, ds := NamesOf(names), DefsOf(defs);
    if |ns| == 0 then Threw(v, EmptyNames)
    else if |ds| == 0 then Threw(v, EmptyDefs)
    else match ResolveNames(v.recs, v.ledger, ns, rename)
      case Spun => Hangs
      case Conflict(l, n) => Threw(v.(ledger := l), NameConflict(n))
      case Resolved(l, resolved) =>
        match FirstSharing(v.recs, ds)
        case Some(j) => Threw(v.(ledger := l), DefinitionConflict(resolved[0], Canonical(v.recs[j])))
        case None =>
          var r := Rec(resolved, ds);
          Done(Vocab(v.recs + [r], l, v.onauto, v.notified), r)
  }

  /** Without `renameIfConflict` registration never hangs, and it succeeds
      exactly when both lists are non-empty, no name is used by an existing
      record and no definition is owned by one; the record then carries the
      names as given, all of them claimed. */
  lemma DefineWithoutRename(v: Vocab, names: NamesArg, defs: DefsArg)
    ensures var o := DefineProperty(v, names, defs, false);
            && !o.Hangs?
            && (o.Done? <==> && |NamesOf(names)| > 0 && |DefsOf(defs)| > 0
                             && (forall i :: 0 <= i < |NamesOf(names)| ==> !NameUsed(v.recs, NamesOf(names)[i]))
                             && (forall j :: 0 <= j < |v.recs| ==> !SharesDef(v.recs[j].defs, DefsOf(defs))))
            && (o.Done? ==> o.value.names == NamesOf(names) && o.vocab.ledger == ClaimAll(v.ledger, NamesOf(names)))
  {
    ResolveWithoutRename(v.recs, v.ledger, NamesOf(names));
  }

  /** Without `renameIfConflict` a used name fails with "Property name X already
      used" for the first used name X; the records are unchanged but the names
      before X stay claimed. */
  lemma NameConflictReport(v: Vocab, names: NamesArg, defs: DefsArg)
    requires var o := DefineProperty(v, names, defs, false); o.Threw? && o.error.NameConflict?
    ensures var o := DefineProperty(v, names, defs, false);
            var ns := NamesOf(names);
            && o.vocab.recs == v.recs
            && exists i :: && 0 <= i < |ns|
                           && NameUsed(v.recs, ns[i]) && o.error.name == ns[i]
                           && (forall j :: 0 <= j < i ==> !NameUsed(v.recs, ns[j]))
                           && o.vocab.ledger == ClaimAll(v.ledger, ns[..i])
  {
    ConflictReportsFirst(v.recs, v.ledger, NamesOf(names));
  }

  /** With `renameIfConflict` a name never conflicts; registration can only
      hang when some name is used and the allocator is stuck on it, and it
      returns the new record whenever both lists are non-empty, no definition
      is owned and every used name holds a numeric count. */
  lemma DefineWithRename(v: Vocab, names: NamesArg, defs: DefsArg)
    ensures var o := DefineProperty(v, names, defs, true);
            && !(o.Threw? && o.error.NameConflict?)
            && (o.Hangs? ==> exists i :: 0 <= i < |NamesOf(names)| && NameUsed(v.recs, NamesOf(names)[i]))
            && ((&& |NamesOf(names)| > 0 && |DefsOf(defs)| > 0
                 && FirstSharing(v.recs, DefsOf(defs)).None?
                 && UsedHaveCounts(v.recs, v.ledger, NamesOf(names))) ==> o.Done?)
  {
    ResolveWithRename(v.recs, v.ledger, NamesOf(names));
  }

  /** The names of a new record: each name no existing record uses is kept, each
      used one is replaced by the name `uniqueVersion` returns at that point of
      the loop, which was not a ledger key; every requested name becomes a
      ledger key. */
  lemma DefinedNames(v: Vocab, names: NamesArg, defs: DefsArg, rename: bool)
    requires DefineProperty(v, names, defs, rename).Done?
    ensures var o := DefineProperty(v, names, defs, rename);
            var ns := NamesOf(names);
            && (forall i :: 0 <= i < |ns| && !NameUsed(v.recs, ns[i]) ==> o.value.names[i] == ns[i])
            && (forall i :: 0 <= i < |ns| && NameUsed(v.recs, ns[i]) ==>
                  rename && o.value.names[i] !in v.ledger && IsVersionOf(o.value.names[i], ns[i]))
            && (forall i :: 0 <= i < |ns| && NameUsed(v.recs, ns[i]) ==>
                  UniqueVersion(LedgerBefore(v.recs, v.ledger, ns, rename, i), ns[i])
                  == Allocated(LedgerBefore(v.recs, v.ledger, ns, rename, i + 1), o.value.names[i]))
            && o.vocab.ledger.Keys == v.ledger.Keys + set n | n in ns
            && o.vocab.ledger == LedgerBefore(v.recs, v.ledger, ns, rename, |ns|)
  {
    var ns := NamesOf(names);
    ResolvedNames(v.recs, v.ledger, ns, rename);
    var r := ResolveNames(v.recs, v.ledger, ns, rename);
    assert DefineProperty(v, names, defs, rename).value.names == r.names;
    assert DefineProperty(v, names, defs, rename).vocab.ledger == r.ledger;
  }

  /** A definition conflict names the requesting record by its first name
      after renaming, and the ledger keeps the claims of the names loop. */
  lemma DefinitionConflictReport(v: Vocab, names: NamesArg, defs: DefsArg, rename: bool)
    requires var o := DefineProperty(v, names, defs, rename); o.Threw? && o.error.DefinitionConflict?
    ensures var o := DefineProperty(v, names, defs, rename);
            var ns := NamesOf(names);
            && (!NameUsed(v.recs, ns[0]) ==> o.error.name == ns[0])
            && (NameUsed(v.recs, ns[0]) ==> IsVersionOf(o.error.name, ns[0]))
            && (NameUsed(v.recs, ns[0]) ==> UniqueVersion(v.ledger, ns[0]).Allocated? && o.error.name == UniqueVersion(v.ledger, ns[0]).name)
            && o.vocab.ledger.Keys == v.ledger.Keys + set n | n in ns
            && o.vocab.ledger == LedgerBefore(v.recs, v.ledger, ns, rename, |ns|)
  {
    ResolvedNames(v.recs, v.ledger, NamesOf(names), rename);
  }
}

=== FILE: renaming.dfy ===
/** Auto-registration and renaming sequences: the ones exercised by
    test/basics.js, and the one that gives two records the same generated name. */
module Renaming {
  import opened JsText
  import opened Records
  import opened Allocator
  import opened Registry
  import opened Matcher
  import opened Converter
  import opened Invariants
  import opened Scenarios

  /** Registering one unused name with one unowned definition, passed as lists,
      appends the record and claims the name, whether renaming is on or not. */
  lemma DefineListed(v: Vocab, name: string, d: string, rename: bool)
    requires !NameUsed(v.recs, name)
    requires FirstSharing(v.recs, [d]).None?
    ensures DefineProperty(v, NameList([name]), DefList([d]), rename)
         == Done(v.(recs := v.recs + [Rec([name], [d])], ledger := v.ledger[name := At(1)]), Rec([name], [d]))
  {
    var l := ClaimName(v.ledger, name);
    assert ResolveOne(v.recs, v.ledger, name, rename) == Took(l, name);
    assert ResolveNames(v.recs, l, [], rename) == Resolved(l, []);
    assert ResolveNames(v.recs, v.ledger, [name], rename) == Resolved(l, [name]);
  }

  /** Registering one used name with renaming on takes the allocator's name
      and ledger. */
  lemma DefineRenamed(v: Vocab, name: string, d: string, l: Ledger, n: string)
    requires NameUsed(v.recs, name)
    requires UniqueVersion(v.ledger, name) == Allocated(l, n)
    requires FirstSharing(v.recs, [d]).None?
    ensures DefineProperty(v, NameList([name]), DefList([d]), true)
         == Done(v.(recs := v.recs + [Rec([n], [d])], ledger := l), Rec([n], [d]))
  {
    assert ResolveOne(v.recs, v.ledger, name, true) == Took(l, n);
    assert ResolveNames(v.recs, l, [], true) == Resolved(l, []);
    assert ResolveNames(v.recs, v.ledger, [name], true) == Resolved(l, [n]);
  }

  /** Converting `{name: x}` from a one-record source: the key becomes the
      canonical name of whatever record the target's matcher returns. */
  lemma ConvertFromSource(name: string, d: string, x: Value, to: Vocab, t: Vocab, r: Rec)
    requires IsPrimitive(x)
    requires Match(to, Some(Rec([name], [d]))) == Done(t, Some(r))
    ensures Convert(Source(name, d), Obj([(name, x)]), to) == Done(t, Obj([(Canonical(r), x)]))
  {
    var src := Source(name, d);
    assert name in src.recs[0].names;
    assert ByName(src.recs, name) == Some(Rec([name], [d]));
    var o := Obj([(name, x)]);
    assert Convert(from := src, x := x, to := t) == Done(t, x);
    assert Put([], Canonical(r), x) == [(Canonical(r), x)];
    assert ConvertFields(src, o, 1, t, [(Canonical(r), x)]) == Done(t, [(Canonical(r), x)]);
  }

  /** With `onauto` set, an unmatched one-name record whose name is unused is
      registered under that name; a callback `onauto` is handed the new record. */
  lemma AutoFresh(v: Vocab, name: string, d: string)
    requires !v.onauto.Off?
    requires !NameUsed(v.recs, name)
    requires FirstSharing(v.recs, [d]).None?
    ensures var r := Rec([name], [d]);
            Match(v, Some(r)) == Done(Vocab(v.recs + [r], v.ledger[name := At(1)], v.onauto,
                                            if v.onauto.Notify? then v.notified + [r] else v.notified), Some(r))
  {
    DefineListed(v, name, d, true);
  }

  /** With `onauto` set to true (not a function), an unmatched record whose one
      name is used is registered silently under the allocator's name. */
  lemma AutoRenamed(v: Vocab, name: string, d: string, l: Ledger, n: string)
    requires v.onauto == Silent
    requires NameUsed(v.recs, name)
    requires UniqueVersion(v.ledger, name) == Allocated(l, n)
    requires FirstSharing(v.recs, [d]).None?
    ensures Match(v, Some(Rec([name], [d])))
         == Done(v.(recs := v.recs + [Rec([n], [d])], ledger := l), Some(Rec([n], [d])))
  {
    DefineRenamed(v, name, d, l, n);
  }

  /** test 'property auto created': with a callback `onauto`, `{age: 20}`
      converts to `{age: 20}`, and the callback receives a record equal to the
      source's, named `age`. */
  lemma AutoNotified()
    ensures var x := Vocab([], map[], Notify, []);
            var r := Rec(["age"], [Years]);
            Convert(Source("age", Years), Obj([("age", Number(20))]), x) == Done(Vocab([r], map["age" := At(1)], Notify, [r]), Obj([("age", Number(20))]))
  {
    var x := Vocab([], map[], Notify, []);
    var r := Rec(["age"], [Years]);
    AutoFresh(x, "age", Years);
    ConvertFromSource("age", Years, Number(20), x, Vocab([r], map["age" := At(1)], Notify, [r]), r);
  }

  /** Counters render as JavaScript prints them. */
  lemma SmallDec()
    ensures Dec(2) == "2" && Dec(3) == "3" && Dec(4) == "4" && Dec(5) == "5"
  {
  }

  /** `uniqueVersion('age')` after counter 3 skips the directly claimed
      `age_4` and yields `age_5`, storing 5 as the new counter. */
  lemma AllocatesPastClaimed()
    ensures UniqueVersion(map["age" := At(3), "age_4" := At(1)], "age")
         == Allocated(map["age" := At(5), "age_4" := At(1)], "age_5")
  {
    var l := map["age" := At(3), "age_4" := At(1)];
    SmallDec();
    assert Candidate("age", 4) == "age_4";
    assert Candidate("age", 5) == "age_5";
    assert NextFree(l, "age", 4) == 5;
    assert NextFree(l, "age", 3) == 5;
  }

  const D0 := "some other def of age"
  const D1 := "the v1 def of age"
  const D2 := "the v2 def of age"
  const D3 := "the v3 def of age with a name twist!"
  const D4 := "the v4 def of age"

  /** The auto-registering vocabulary of test 'auto created with nasty
      renaming' after each of its five conversions. */
  const X0 := Vocab([], map[], Silent, [])
  const X1 := Vocab([Rec(["age"], [D0])], map["age" := At(1)], Silent, [])
  const X2 := Vocab([Rec(["age"], [D0]), Rec(["age_2"], [D1])], map["age" := At(2)], Silent, [])
  const X3 := Vocab([Rec(["age"], [D0]), Rec(["age_2"], [D1]), Rec(["age_3"], [D2])], map["age" := At(3)], Silent, [])
  const X4 := Vocab([Rec(["age"], [D0]), Rec(["age_2"], [D1]), Rec(["age_3"], [D2]), Rec(["age_4"], [D3])],
                    map["age" := At(3), "age_4" := At(1)], Silent, [])
  const X5 := Vocab([Rec(["age"], [D0]), Rec(["age_2"], [D1]), Rec(["age_3"], [D2]), Rec(["age_4"], [D3]), Rec(["age_5"], [D4])],
                    map["age" := At(5), "age_4" := At(1)], Silent, [])

  /** `{age: 20}` arrives first and keeps its name. */
  lemma NastyFirst()
    ensures Convert(Source("age", D0), Obj([("age", Number(20))]), X0) == Done(X1, Obj([("age", Number(20))]))
  {
    AutoFresh(X0, "age", D0);
    ConvertFromSource("age", D0, Number(20), X0, X1, Rec(["age"], [D0]));
  }

  /** A second `age` with any definition other than the first one's becomes
      `age_2`, and the counter of `age` moves to 2. */
  lemma SecondAge(d: string, n: int)
    requires d != D0
    ensures Convert(Source("age", d), Obj([("age", Number(n))]), X1)
         == Done(X1.(recs := X1.recs + [Rec(["age_2"], [d])], ledger := map["age" := At(2)]), Obj([("age_2", Number(n))]))
  {
    SmallDec();
    assert Candidate("age", 2) == "age_2";
    assert NextFree(X1.ledger, "age", 1) == 2;
    assert X1.ledger["age" := At(2)] == map["age" := At(2)];
    assert "age" in X1.recs[0].names;
    assert FirstSharing(X1.recs, [d]) == None by { assert !SharesDef(X1.recs[0].defs, [d]); }
    AutoRenamed(X1, "age", d, map["age" := At(2)], "age_2");
    ConvertFromSource("age", d, Number(n), X1, X1.(recs := X1.recs + [Rec(["age_2"], [d])], ledger := map["age" := At(2)]), Rec(["age_2"], [d]));
  }

  /** test 'auto created with renaming': `{age: 20}` from a vocabulary whose
      `age` has another definition keeps its name, and `{age: 21}` from the
      vocabulary holding the long definition then becomes `{age_2: 21}`. */
  lemma AutoCreatedWithRenaming()
    ensures Convert(Source("age", D0), Obj([("age", Number(20))]), X0) == Done(X1, Obj([("age", Number(20))]))
    ensures Convert(Source("age", Years), Obj([("age", Number(21))]), X1)
         == Done(X1.(recs := X1.recs + [Rec(["age_2"], [Years])], ledger := map["age" := At(2)]), Obj([("age_2", Number(21))]))
  {
    NastyFirst();
    assert Years != D0 by { assert |Years| != |D0|; }
    SecondAge(Years, 21);
  }

  /** A second `age` with another definition becomes `age_2`. */
  lemma NastySecond()
    ensures Convert(Source("age", D1), Obj([("age", Number(21))]), X1) == Done(X2, Obj([("age_2", Number(21))]))
  {
    SecondAge(D1, 21);
  }

  /** A third becomes `age_3`. */
  lemma NastyThird()
    ensures Convert(Source("age", D2), Obj([("age", Number(22))]), X2) == Done(X3, Obj([("age_3", Number(22))]))
  {
    SmallDec();
    assert Candidate("age", 3) == "age_3";
    assert NextFree(X2.ledger, "age", 2) == 3;
    assert "age" in X2.recs[0].names;
    AutoRenamed(X2, "age", D2, X3.ledger, "age_3");
    ConvertFromSource("age", D2, Number(22), X2, X3, Rec(["age_3"], [D2]));
  }

  /** `age_4` arrives under its own name and is claimed directly. */
  lemma NastyFourth()
    ensures Convert(Source("age_4", D3), Obj([("age_4", Number(23))]), X3) == Done(X4, Obj([("age_4", Number(23))]))
  {
    assert X3.ledger["age_4" := At(1)] == X4.ledger;
    AutoFresh(X3, "age_4", D3);
    ConvertFromSource("age_4", D3, Number(23), X3, X4, Rec(["age_4"], [D3]));
  }

  /** The next `age` skips the claimed `age_4` and becomes `age_5`. */
  lemma NastyFifth()
    ensures Convert(Source("age", D4), Obj([("age", Number(24))]), X4) == Done(X5, Obj([("age_5", Number(24))]))
  {
    AllocatesPastClaimed();
    assert "age" in X4.recs[0].names;
    AutoRenamed(X4, "age", D4, X5.ledger, "age_5");
    ConvertFromSource("age", D4, Number(24), X4, X5, Rec(["age_5"], [D4]));
  }

  /** A vocabulary after `a` was registered and then renamed once, to `a_2`. */
  const N1 := Vocab([Rec(["a"], ["d1"]), Rec(["a_2"], ["d2"])], map["a" := At(2)], Off, [])
  const N2 := Vocab([Rec(["a"], ["d1"]), Rec(["a_2"], ["d2"]), Rec(["a_2_NaN"], ["d3"])],
                    map["a" := At(2), "a_2" := NaN], Off, [])
  const N3 := Vocab([Rec(["a"], ["d1"]), Rec(["a_2"], ["d2"]), Rec(["a_2_NaN"], ["d3"]), Rec(["a_2_NaN"], ["d4"])],
                    map["a" := At(2), "a_2" := NaN], Off, [])

  /** The generated name `a_2` was never claimed, so renaming it again starts
      from an undefined count: it becomes `a_2_NaN`, and so does the next one.
      Two records then share a name, although every registration succeeded. */
  lemma GeneratedNameRepeats()
    ensures DefineProperty(Source("a", "d1"), NameList(["a"]), DefList(["d2"]), true) == Done(N1, Rec(["a_2"], ["d2"]))
    ensures DefineProperty(N1, NameList(["a_2"]), DefList(["d3"]), true) == Done(N2, Rec(["a_2_NaN"], ["d3"]))
    ensures DefineProperty(N2, NameList(["a_2"]), DefList(["d4"]), true) == Done(N3, Rec(["a_2_NaN"], ["d4"]))
    ensures !Distinct(AllNames(N3.recs))
  {
    GeneratedFirst();
    GeneratedSecond();
    GeneratedThird();
    RepeatedNames();
    assert AllNames(N3.recs)[2] == AllNames(N3.recs)[3];
  }

  /** The names of N3's records, in order. */
  lemma RepeatedNames()
    ensures AllNames(N3.recs) == ["a", "a_2", "a_2_NaN", "a_2_NaN"]
  {
    assert N3.recs[..3] == N2.recs && N2.recs[..2] == N1.recs;
    assert N1.recs[..1] == [Rec(["a"], ["d1"])];
    assert [Rec(["a"], ["d1"])][..0] == [];
  }

  lemma GeneratedFirst()
    ensures DefineProperty(Source("a", "d1"), NameList(["a"]), DefList(["d2"]), true) == Done(N1, Rec(["a_2"], ["d2"]))
  {
    var v := Source("a", "d1");
    SmallDec();
    assert Candidate("a", 2) == "a_2";
    assert NextFree(v.ledger, "a", 1) == 2;
    assert "a" in v.recs[0].names;
    assert FirstSharing(v.recs, ["d2"]) == None by { assert !SharesDef(v.recs[0].defs, ["d2"]); }
    DefineRenamed(v, "a", "d2", N1.ledger, "a_2");
  }

  lemma GeneratedSecond()
    ensures DefineProperty(N1, NameList(["a_2"]), DefList(["d3"]), true) == Done(N2, Rec(["a_2_NaN"], ["d3"]))
  {
    assert "a_2" in N1.recs[1].names;
    assert NaNName("a_2") == "a_2_NaN";
    assert UniqueVersion(N1.ledger, "a_2") == Allocated(N2.ledger, "a_2_NaN");
    assert FirstSharing(N1.recs, ["d3"]) == None;
    DefineRenamed(N1, "a_2", "d3", N2.ledger, "a_2_NaN");
  }

  lemma GeneratedThird()
    ensures DefineProperty(N2, NameList(["a_2"]), DefList(["d4"]), true) == Done(N3, Rec(["a_2_NaN"], ["d4"]))
  {
    assert "a_2" in N2.recs[1].names;
    assert NaNName("a_2") == "a_2_NaN";
    assert UniqueVersion(N2.ledger, "a_2") == Allocated(N2.ledger, "a_2_NaN");
    assert FirstSharing(N2.recs, ["d4"]) == None;
    DefineRenamed(N2, "a_2", "d4", N2.ledger, "a_2_NaN");
  }
}

=== FILE: scenarios.dfy ===
/** The behaviours exercised by test/basics.js, stated over the model, plus the
    registration sequence that gives two records the same name. */
module Scenarios {
  import opened JsText
  import opened Records
  import opened Allocator
  import opened Registry
  import opened Matcher
  import opened Converter

  /** Registering one space-free name with one definition into a vocabulary
      that does not use the name and does not own the definition appends the
      record and claims the name. */
  lemma DefineOne(v: Vocab, name: string, d: string)
    requires NoSpace(name)
    requires !NameUsed(v.recs, name)
    requires forall j :: 0 <= j < |v.recs| ==> d !in v.recs[j].defs
    ensures DefineProperty(v, Words(name), OneDef(d), false)
         == Done(v.(recs := v.recs + [Rec([name], [d])], ledger := v.ledger[name := At(1)]), Rec([name], [d]))
  {
    SplitWord(name, "");
    DefineWithoutRename(v, Words(name), OneDef(d));
    assert ClaimAll(v.ledger, [name]) == ClaimAll(ClaimName(v.ledger, name), []);
  }

  /** A one-key object converts to the canonical name of whatever record the
      target's matcher returns, the primitive value unchanged. */
  lemma OneKey(from: Vocab, to: Vocab, key: string, x: Value, t: Vocab, r: Rec)
    requires IsPrimitive(x)
    requires Match(to, ByName(from.recs, key)) == Done(t, Some(r))
    ensures Convert(from, Obj([(key, x)]), to) == Done(t, Obj([(Canonical(r), x)]))
  {
    var o := Obj([(key, x)]);
    assert Convert(from, x, t) == Done(t, x);
    assert Put([], Canonical(r), x) == [(Canonical(r), x)];
    assert ConvertFields(from, o, 1, t, [(Canonical(r), x)]) == Done(t, [(Canonical(r), x)]);
  }

  /** A vocabulary holding one record under one name, as one `defineProperty`
      call leaves a fresh vocabulary. */
  function Source(name: string, d: string): Vocab
  {
    Vocab([Rec([name], [d])], map[name := At(1)], Off, [])
  }

  /** The first registration into a fresh vocabulary. */
  lemma FirstRegistration(name: string, d: string)
    requires NoSpace(name)
    ensures DefineProperty(Create(), Words(name), OneDef(d), false) == Done(Source(name, d), Rec([name], [d]))
  {
    DefineOne(Create(), name, d);
  }

  /** Registering, without renaming, one space-free name that a record already
      uses fails on that name before anything is claimed. */
  lemma DefineUsed(v: Vocab, name: string, d: string)
    requires NoSpace(name)
    requires NameUsed(v.recs, name)
    ensures DefineProperty(v, Words(name), OneDef(d), false) == Threw(v, NameConflict(name))
  {
    SplitWord(name, "");
    assert ResolveNames(v.recs, v.ledger, [name], false) == Conflict(v.ledger, name);
  }

  /** The definition the tests of test/basics.js give their age properties. */
  const Years := "the number of years since a thing was created, a number, using years as 365.24 * 86400 seconds"

  /** test 'property by a different name', registration: each vocabulary
      holds one record carrying the shared definition. */
  lemma ByDifferentNameRegistered()
    ensures DefineProperty(Create(), Words("age"), OneDef(Years), false) == Done(Source("age", Years), Rec(["age"], [Years]))
    ensures DefineProperty(Create(), Words("yearsOld"), OneDef(Years), false) == Done(Source("yearsOld", Years), Rec(["yearsOld"], [Years]))
  {
    FirstRegistration("age", Years);
    FirstRegistration("yearsOld", Years);
  }

  /** test 'property by a different name', conversion: `{age: 20}` becomes
      `{yearsOld: 20}` when both properties carry the same definition. */
  lemma ByDifferentNameConverted()
    ensures Convert(Source("age", Years), Obj([("age", Number(20))]), Source("yearsOld", Years))
         == Done(Source("yearsOld", Years), Obj([("yearsOld", Number(20))]))
  {
    var v1, v2 := Source("age", Years), Source("yearsOld", Years);
    assert ByName(v1.recs, "age") == Some(v1.recs[0]);
    assert Years in v2.recs[0].defs;
    assert FirstSharing(v2.recs, v1.recs[0].defs) == Some(0);
    assert Match(v2, Some(v1.recs[0])) == Done(v2, Some(v2.recs[0]));
    OneKey(v1, v2, "age", Number(20), v2, v2.recs[0]);
  }

  /** test 'property by a different name, multiple defs': the key matches the
      second name of a two-name record, and the target record owning one of
      its definitions at a different position supplies the output key. */
  lemma MultipleDefs()
    ensures var v1 := Vocab([Rec(["age2", "age"], [Years, "older def"])], map["age2" := At(1), "age" := At(1)], Off, []);
            var v2 := Vocab([Rec(["yearsOld", "other"], ["some other def", Years])], map["yearsOld" := At(1), "other" := At(1)], Off, []);
            Convert(v1, Obj([("age", Number(20))]), v2) == Done(v2, Obj([("yearsOld", Number(20))]))
  {
    var v1 := Vocab([Rec(["age2", "age"], [Years, "older def"])], map["age2" := At(1), "age" := At(1)], Off, []);
    var v2 := Vocab([Rec(["yearsOld", "other"], ["some other def", Years])], map["yearsOld" := At(1), "other" := At(1)], Off, []);
    assert "age" in v1.recs[0].names;
    assert ByName(v1.recs, "age") == Some(v1.recs[0]);
    assert Years in v2.recs[0].defs;
    assert FirstSharing(v2.recs, v1.recs[0].defs) == Some(0);
    assert Match(v2, Some(v1.recs[0])) == Done(v2, Some(v2.recs[0]));
    OneKey(v1, v2, "age", Number(20), v2, v2.recs[0]);
  }

  /** The registrations of test 'property by a different name, multiple defs':
      a space-separated names string gives a two-name record. */
  lemma MultipleDefsRegistered()
    ensures DefineProperty(Create(), Words("age2 age"), DefList([Years, "older def"]), false)
         == Done(Vocab([Rec(["age2", "age"], [Years, "older def"])], map["age2" := At(1), "age" := At(1)], Off, []),
                 Rec(["age2", "age"], [Years, "older def"]))
  {
    assert "age2 age" == "age2" + " " + "age";
    FirstRegistrationOfTwo("age2", "age", [Years, "older def"]);
  }

  /** A first registration under two space-separated names. */
  lemma FirstRegistrationOfTwo(n1: string, n2: string, defs: seq<string>)
    requires NoSpace(n1) && NoSpace(n2) && |defs| > 0
    ensures DefineProperty(Create(), Words(n1 + " " + n2), DefList(defs), false)
         == Done(Vocab([Rec([n1, n2], defs)], map[n1 := At(1), n2 := At(1)], Off, []), Rec([n1, n2], defs))
  {
    SplitWord(n1, n2);
    SplitWord(n2, "");
    var l1: Ledger := map[n1 := At(1)];
    var l2: Ledger := map[n1 := At(1), n2 := At(1)];
    assert ResolveNames([], l2, [], false) == Resolved(l2, []);
    assert ResolveNames([], l1, [n2], false) == Resolved(l2, [n2]);
    assert [n1, n2][1..] == [n2];
    assert ResolveNames([], map[], [n1, n2], false) == Resolved(l2, [n1, n2]);
  }

  /** test 'property not matched': a target record with a different
      definition does not match, and the key is dropped. */
  lemma NotMatched()
    ensures Convert(Source("age", Years), Obj([("age", Number(20))]), Source("yearsOld", "NOT " + Years))
         == Done(Source("yearsOld", "NOT " + Years), Obj([]))
  {
    var v1, v2 := Source("age", Years), Source("yearsOld", "NOT " + Years);
    assert ByName(v1.recs, "age") == Some(v1.recs[0]);
    assert "age" in v1.recs[0].names;
    assert !SharesDef(v2.recs[0].defs, v1.recs[0].defs);
    UnmatchedDropped(v1, v2, "age", Number(20));
  }

  /** test 'property absent': a target with no records drops the key. */
  lemma PropertyAbsent()
    ensures Convert(Source("age", Years), Obj([("age", Number(20))]), Create()) == Done(Create(), Obj([]))
  {
    var v1 := Source("age", Years);
    assert "age" in v1.recs[0].names;
    assert ByName(v1.recs, "age") == Some(v1.recs[0]);
    UnmatchedDropped(v1, Create(), "age", Number(20));
  }

  /** test 'error if name previously used': the second registration of `age`
      fails with the source's message and changes nothing. */
  lemma NamePreviouslyUsed()
    ensures var o := DefineProperty(Source("age", "definition1"), Words("age"), OneDef("definition2"), false);
            && o == Threw(Source("age", "definition1"), NameConflict("age"))
            && Message(o.error) == "Property name age already used"
  {
    assert "age" in Source("age", "definition1").recs[0].names;
    DefineUsed(Source("age", "definition1"), "age", "definition2");
  }

  /** Registering one space-free, unused name with a definition some record
      already owns fails naming the first owner; the name stays claimed. */
  lemma DefineOwned(v: Vocab, name: string, d: string, j: nat)
    requires NoSpace(name)
    requires !NameUsed(v.recs, name)
    requires FirstSharing(v.recs, [d]) == Some(j)
    ensures DefineProperty(v, Words(name), OneDef(d), false)
         == Threw(v.(ledger := v.ledger[name := At(1)]), DefinitionConflict(name, Canonical(v.recs[j])))
  {
    SplitWord(name, "");
    var l := ClaimName(v.ledger, name);
    assert ResolveOne(v.recs, v.ledger, name, false) == Took(l, name);
    assert ResolveNames(v.recs, l, [], false) == Resolved(l, []);
    assert ResolveNames(v.recs, v.ledger, [name], false) == Resolved(l, [name]);
  }

  /** test 'error if def previously used': registering the definition again
      under a new name fails with a message naming the new property and the
      owner of the definition; the new name stays claimed. */
  lemma DefinitionPreviouslyUsed()
    ensures var v1 := Source("age1", "definition");
            var o := DefineProperty(v1, Words("age2"), OneDef("definition"), false);
            && o == Threw(v1.(ledger := v1.ledger["age2" := At(1)]), DefinitionConflict("age2", "age1"))
            && Message(o.error) == "Property def of age2 already used by age1"
  {
    var v1 := Source("age1", "definition");
    assert !NameUsed(v1.recs, "age2");
    assert "definition" in v1.recs[0].defs;
    assert FirstSharing(v1.recs, ["definition"]) == Some(0);
    DefineOwned(v1, "age2", "definition", 0);
    DefinitionMessage();
  }

  /** The message of the definition conflict in that test. */
  lemma DefinitionMessage()
    ensures Message(DefinitionConflict("age2", "age1")) == "Property def of age2 already used by age1"
  {
  }
}
